=== FILE: README.md ===
# OctopusWrapper deployment-package creator, modelled in Dafny

OctopusWrapper builds one Octopus Deploy package per release. `DeploymentPackageCreator` takes the
NuGet packages (`*.nupkg`) of a nugets folder and the Chocolatey packages of a chocos folder. It
stages a copy of each under a role suffix (`.nzip` or `.czip`), generates a `Metadata.ps1` script
describing the release, and asks NuGet's `PackageBuilder` to write the package with id
`<product>.Deploy` into the deploy folder, as a file named by the builder's full name (id and
version) plus `.nupkg`. A `finally` block then deletes every staged copy.

The model is functional:

- the file system is a `map` from folder path to folder, and a folder is a `map` from file name to
  contents; a folder that is not a key does not exist;
- globbing `*<ext>` is a suffix test on the file name, comparing each character of the suffix with
  the character in the same place from the end (`Paths.EndsWith`);
- `File.Copy(p, p + suffix, true)` over all packages is one right-biased map union (`Stage`), and
  deleting every `*<suffix>` is a map subtraction (`Cleanup`); the source's loops are methods over a
  listing in unspecified order, proved equal to these functions;
- every exception the model keeps (a missing folder, an invalid version, a version without a
  minor part, a failing archive writer) is a `Result` failure, and each step returns the file system
  as the exception left it, so the `try`/`finally` is stated on the success path and the failure path
  alike;
- NuGet's version parser, canonical package name and archive writer are fields of an `Environment`
  value that the model leaves uninterpreted.
- the clauses `WriterAlwaysSaves(env) ==> r.Success?` and `WriterAlwaysThrows(env) ==> r ==
  Failure(ArchiveWriteFailed)` in the creator's contracts are corollaries of the clauses tying the
  output file to the writer's archive or partial bytes; they are kept as direct statements.

Files: `results.dfy` (Result), `exceptions.dfy`, `paths.dfy` (Path.Combine, suffix tests),
`text.dfy` (String.Split/Join), `files.dfy` (folders, Directory.GetFiles, File.WriteAllText),
`staging.dfy` (staging and cleanup), `metadata.dfy` (the metadata script and a reader for it),
`manifest.dfy` (the PackageBuilder manifest), `creator.dfy` (the creator itself).

Behaviour of the code worth knowing:

- A missing chocos folder throws `DirectoryNotFoundException` during staging, before the `try`; the
  `.nzip` copies already made in the nugets folder stay behind (`CreateDeploymentPackage`, second
  postcondition).
- The content entries are every `*.nzip` / `*.czip` file present after staging, not only the copies
  this run made. Copies left over from an earlier run are packaged too, and deleted by the cleanup.
- There is no metadata-override folder, no tools bundling, no destination wiping and no commit hash
  in this creator. The destination folder is created when absent and otherwise kept as it is.

## Model

| member | source | states |
|---|---|---|
| Files.GetFiles | src/OctopusWrapper/DeploymentPackageCreator.cs:29 | a missing folder throws DirectoryNotFound; otherwise the listing holds every file matching the glob exactly once, in unspecified order |
| Files.WriteAllText | src/OctopusWrapper/DeploymentPackageCreator.cs:98-99 | the file is created or replaced with the text, every other file and folder is unchanged, and a missing folder throws without writing |
| Files.WriteBytes | src/OctopusWrapper/DeploymentPackageCreator.cs:107-114 | the file holds exactly the bytes written, its folder is created if absent and keeps its other files, and every other folder is unchanged |
| Paths.CombineShape | src/OctopusWrapper/DeploymentPackageCreator.cs:105 | the combined path ends with the second part and starts with the first part unless the second part is rooted |
| Paths.CombineThenAppend | src/OctopusWrapper/DeploymentPackageCreator.cs:105 | appending the extension after combining equals combining with the extended name, so the output file is `fullName + ".nupkg"` inside the destination folder |
| Paths.EndsWithSlice | src/OctopusWrapper/DeploymentPackageCreator.cs:29 | the glob test agrees with comparing the last characters of the name, as one slice, with the suffix |
| Text.Split | src/OctopusWrapper/DeploymentPackageCreator.cs:72 | the parts contain no separator, and there are at least two parts exactly when the string contains the separator |
| Text.JoinSplit | src/OctopusWrapper/DeploymentPackageCreator.cs:72 | joining the parts of a split gives back the original version string |
| Text.SplitJoin | src/OctopusWrapper/DeploymentPackageCreator.cs:72 | splitting a join of separator-free parts gives back the parts |
| Staging.PackageIsNotStaged | src/OctopusWrapper/DeploymentPackageCreator.cs:29-35 | no name matches both `*.nupkg` and a staging suffix, so a copy is never itself staged |
| Staging.CopyNameIff | src/OctopusWrapper/DeploymentPackageCreator.cs:29-36 | a name is a copy of one of the packages exactly when it carries the role suffix and the name without the suffix is that package; the copy of p is named p + suffix and leads back to p |
| Staging.CopyOfOriginal | src/OctopusWrapper/DeploymentPackageCreator.cs:31 | a name carrying the role suffix is the name it was copied from with the suffix appended |
| Staging.Stage | src/OctopusWrapper/DeploymentPackageCreator.cs:29-36 | every package p gains the copy p + suffix holding p's bytes (overwriting an existing copy), every other file, orphan leftover copies included, keeps its contents, and nothing else appears |
| Staging.Cleanup | src/OctopusWrapper/DeploymentPackageCreator.cs:45-52 | exactly the names ending with the role suffix disappear, every other file keeps its contents, and no copy remains |
| Staging.StageRole | src/OctopusWrapper/DeploymentPackageCreator.cs:29-36 | the copy loop over the listing, in any order, yields `Stage` of the folder; a missing folder throws before any copy |
| Staging.CleanupRole | src/OctopusWrapper/DeploymentPackageCreator.cs:45-52 | the delete loop over the listing, in any order, yields `Cleanup` of the folder; a missing folder throws |
| Staging.CleanupAfterStage | src/OctopusWrapper/DeploymentPackageCreator.cs:29-52 | staging then cleaning up equals cleaning up alone: fresh copies and leftover copies are all deleted |
| Staging.StageThenCleanup | src/OctopusWrapper/DeploymentPackageCreator.cs:29-52 | a folder holding no copies of the role before staging ends exactly as it started |
| Staging.CleanupIdempotent | src/OctopusWrapper/DeploymentPackageCreator.cs:45-52 | cleaning up twice is cleaning up once |
| Staging.StagePreservesPackages | src/OctopusWrapper/DeploymentPackageCreator.cs:29-36 | staging keeps the set of packages and their bytes |
| Staging.StageIdempotent | src/OctopusWrapper/DeploymentPackageCreator.cs:31 | staging again overwrites each copy with the same bytes and changes nothing |
| Staging.CopyNamesCount | src/OctopusWrapper/DeploymentPackageCreator.cs:31 | appending the suffix is injective: there are as many copy names as originals |
| Staging.StagedCopies | src/OctopusWrapper/DeploymentPackageCreator.cs:29-36 | without leftovers, the files matching the suffix after staging are exactly one copy per package |
| Staging.StageKeepsOtherRoleClean | src/OctopusWrapper/DeploymentPackageCreator.cs:29-36 | staging one role adds no name with the other role's suffix |
| Staging.StageKeepsOtherRoleCopies | src/OctopusWrapper/DeploymentPackageCreator.cs:29-36 | staging one role leaves the other role's copies unchanged |
| Staging.CleanupCommutes | src/OctopusWrapper/DeploymentPackageCreator.cs:45-52 | the two cleanup loops commute |
| Staging.SharedFolderRoundTrip | src/OctopusWrapper/DeploymentPackageCreator.cs:29-52 | when the nugets and chocos folders are the same folder, both stagings followed by both cleanups still restore it |
| Staging.ExampleStage | src/OctopusWrapper/DeploymentPackageCreator.cs:29-36 | a folder holding A.nupkg gains A.nupkg.nzip with the same bytes |
| Staging.ExampleCleanup | src/OctopusWrapper/DeploymentPackageCreator.cs:45-52 | cleaning up the staged example folder leaves A.nupkg alone again |
| Metadata.GenerateMetadataScript | src/OctopusWrapper/DeploymentPackageCreator.cs:70-82 | the script fails with IndexOutOfRange exactly when the version has no '.' |
| Metadata.ParseAssignmentLine | src/OctopusWrapper/DeploymentPackageCreator.cs:76-80 | each `$Name = "value"` line of the template reads back as that assignment |
| Metadata.RenderIsJoin | src/OctopusWrapper/DeploymentPackageCreator.cs:76-81 | the script is its lines joined by line breaks with a final line break |
| Metadata.ParseLines | src/OctopusWrapper/DeploymentPackageCreator.cs:76-81 | the lines read back as the assignments, in order |
| Metadata.ScriptRoundTrip | src/OctopusWrapper/DeploymentPackageCreator.cs:70-82 | the script reads back as exactly Branch, Version, Product, Major, Minor in that order, with Major and Minor being parts 0 and 1 of the version |
| Metadata.ExampleVersionParts | src/OctopusWrapper/DeploymentPackageCreator.cs:72-74 | "5.3.1" splits into "5", "3" and "1" |
| Metadata.ExampleScript | src/OctopusWrapper/DeploymentPackageCreator.cs:70-82 | the script for NServiceBus 5.3.1 on master holds Major "5" and Minor "3" |
| Manifests.NewManifest | src/OctopusWrapper/DeploymentPackageCreator.cs:58-64 | a new builder holds no entries and exactly the author "Particular Software" |
| Manifests.ContentEntriesGroup | src/OctopusWrapper/DeploymentPackageCreator.cs:84-94 | entries made from a complete listing are one per listed file, all targeted at "content" |
| Manifests.ContentGroupExactlyOnce | src/OctopusWrapper/DeploymentPackageCreator.cs:84-94 | a content group has as many entries as files, every file appears, and no file appears twice |
| DeploymentPackageCreator.AddScript | src/OctopusWrapper/DeploymentPackageCreator.cs:96-101 | the script is written to the temporary folder, whose other files are kept, and appended as the entry targeted at "Metadata.ps1"; a missing temporary folder throws before any entry is added |
| DeploymentPackageCreator.ScriptFileReadsBack | src/OctopusWrapper/DeploymentPackageCreator.cs:96-99 | the script file written to the temporary folder reads back as Branch, Version, Product, Major and Minor of the release |
| DeploymentPackageCreator.OutputFile | src/OctopusWrapper/DeploymentPackageCreator.cs:105 | the output file lies in the destination folder, ends with ".nupkg", and for a plain name has the path `Combine(destinationFolder, fullName) + ".nupkg"` |
| Files.CreateFile | src/OctopusWrapper/DeploymentPackageCreator.cs:107-111 | the folder exists afterwards, the file is empty, and every other file and folder is kept |
| DeploymentPackageCreator.SavePackage | src/OctopusWrapper/DeploymentPackageCreator.cs:103-116 | the destination folder is created if absent and never wiped; the output file is replaced by the writer's complete archive and the save succeeds, or, if the writer throws, holds the part written and the save fails with ArchiveWriteFailed; no other folder changes |
| DeploymentPackageCreator.WriteKeeps | src/OctopusWrapper/DeploymentPackageCreator.cs:111-114 | writing the output file keeps every other file and creates no file but that one |
| DeploymentPackageCreator.SaveKeeps | src/OctopusWrapper/DeploymentPackageCreator.cs:103-116 | saving changes no file but the output file and creates no other file |
| DeploymentPackageCreator.SaveHoldsArchive | src/OctopusWrapper/DeploymentPackageCreator.cs:111-114 | when the writer completes, the save succeeds and the output file holds exactly its archive |
| DeploymentPackageCreator.AddContentAndSave | src/OctopusWrapper/DeploymentPackageCreator.cs:66-67 | the copies of both folders are added, then the package is saved; a missing folder throws before anything is written; on success the output file holds the writer's archive of a manifest adding exactly the listed copies, and on ArchiveWriteFailed it holds the bytes the writer produced before throwing on such a manifest; as corollaries, a writer that always completes gives success and one that always throws gives ArchiveWriteFailed; only the output file changes and no other file appears |
| DeploymentPackageCreator.AddContent | src/OctopusWrapper/DeploymentPackageCreator.cs:84-94 | entries for every `*.nzip` of the nugets folder come first, then every `*.czip` of the chocos folder, each file exactly once; a missing folder throws |
| DeploymentPackageCreator.ScriptKeepsCopies | src/OctopusWrapper/DeploymentPackageCreator.cs:65-66 | writing the script before listing the copies does not change which copies are listed |
| DeploymentPackageCreator.ContentAddedSameCopies | src/OctopusWrapper/DeploymentPackageCreator.cs:65-66 | the content entries depend only on the copies listed in the two staged folders |
| DeploymentPackageCreator.CreateDeployPackage | src/OctopusWrapper/DeploymentPackageCreator.cs:56-68 | the version parse fails before anything is written, then the Minor index, then the missing temporary folder; otherwise the temporary folder holds exactly the metadata script, a missing nugets or chocos folder then throws DirectoryNotFound, and with both folders present the build succeeds or fails with ArchiveWriteFailed; on success the manifest has the header, the script entry first, then the two content groups, and the output file holds the writer's archive of it; on ArchiveWriteFailed the output file holds the bytes the writer produced before throwing on such a manifest; only the script and the output file change or appear |
| DeploymentPackageCreator.ScriptThenBuild | src/OctopusWrapper/DeploymentPackageCreator.cs:65-67 | once the script is written, the build keeps it; a missing nugets or chocos folder throws DirectoryNotFound; otherwise it lists the copies and ends with the archive saved or with the writer's partial bytes in the output file |
| DeploymentPackageCreator.AddsCompose | src/OctopusWrapper/DeploymentPackageCreator.cs:65-67 | writing only the script and then only the output file creates no file but those two |
| DeploymentPackageCreator.ScriptSurvivesSave | src/OctopusWrapper/DeploymentPackageCreator.cs:103-116 | saving keeps the metadata script, because the output file is a `.nupkg` and the script is `Metadata.ps1` |
| DeploymentPackageCreator.StageAllElsewhere | src/OctopusWrapper/DeploymentPackageCreator.cs:29-36 | staging touches no folder other than the two staged ones |
| DeploymentPackageCreator.CleanupAllElsewhere | src/OctopusWrapper/DeploymentPackageCreator.cs:45-52 | the cleanup touches no folder other than the two staged ones |
| DeploymentPackageCreator.CleanupLeavesNoCopies | src/OctopusWrapper/DeploymentPackageCreator.cs:42-53 | after the cleanup no `*.nzip` remains in the nugets folder and no `*.czip` in the chocos folder, and every other file is untouched |
| DeploymentPackageCreator.StageCleanupRoundTrip | src/OctopusWrapper/DeploymentPackageCreator.cs:27-54 | without leftover copies, both folders end as they started, whether they are one folder or two |
| DeploymentPackageCreator.StagedCopiesArePackages | src/OctopusWrapper/DeploymentPackageCreator.cs:29-36 | without leftovers, the copies the build packages are exactly one `.nzip` per NuGet package and one `.czip` per Chocolatey package |
| DeploymentPackageCreator.StageAllKeeps | src/OctopusWrapper/DeploymentPackageCreator.cs:29-36 | staging keeps every file that is not a copy of the role staged in its folder |
| DeploymentPackageCreator.CleanupAllKeeps | src/OctopusWrapper/DeploymentPackageCreator.cs:45-52 | the cleanup keeps every file that is not a copy of the role cleaned in its folder |
| DeploymentPackageCreator.StageAllAdds | src/OctopusWrapper/DeploymentPackageCreator.cs:29-36 | a file staging leaves in a folder was already there unless it is a copy of the role staged in that folder |
| DeploymentPackageCreator.CleanupAllRemoves | src/OctopusWrapper/DeploymentPackageCreator.cs:45-52 | a file the cleanup leaves was already there and is not a copy of the role cleaned in its folder |
| DeploymentPackageCreator.CleanupStaged | src/OctopusWrapper/DeploymentPackageCreator.cs:42-53 | the two delete loops of the `finally` block, which cannot throw once staging has listed both folders, remove each role's copies from its folder |
| DeploymentPackageCreator.OutputSurvivesCleanup | src/OctopusWrapper/DeploymentPackageCreator.cs:45-52 | the output file, a `.nupkg`, is kept by the cleanup with its contents |
| DeploymentPackageCreator.RunKeepsFiles | src/OctopusWrapper/DeploymentPackageCreator.cs:27-54 | a run removes or changes no file except the script, the output file and each role's copies in its own folder |
| DeploymentPackageCreator.RunCleansStagedFolders | src/OctopusWrapper/DeploymentPackageCreator.cs:27-54 | with separate scratch folders, each staged folder ends as cleaning it up alone would leave it, whether the two are one folder or two |
| DeploymentPackageCreator.RunTouchesOnlyItsFolders | src/OctopusWrapper/DeploymentPackageCreator.cs:27-54 | a run leaves every folder other than the two staged folders, the temporary folder and the destination folder unchanged |
| DeploymentPackageCreator.RunAddsOnly | src/OctopusWrapper/DeploymentPackageCreator.cs:27-54 | staging, a build that creates only given files, and the cleanup together create only those files: every copy is deleted again |
| DeploymentPackageCreator.ScriptSurvivesCleanup | src/OctopusWrapper/DeploymentPackageCreator.cs:42-53 | the metadata script is not a staged copy, so the cleanup keeps it |
| DeploymentPackageCreator.ThrewSurvivesCleanup | src/OctopusWrapper/DeploymentPackageCreator.cs:42-53 | the partial archive left when the writer threw is a `.nupkg`, so the cleanup keeps it |
| DeploymentPackageCreator.CleanupFrames | src/OctopusWrapper/DeploymentPackageCreator.cs:42-54 | after the cleanup no copy remains, the staged folders are as their cleanup alone would leave them, other folders and files are kept, and only the script and the output file are new |
| DeploymentPackageCreator.CleanupKeepsOutcome | src/OctopusWrapper/DeploymentPackageCreator.cs:38-53 | when the build failed before writing, the run leaves exactly the cleanup of the staged file system; the script, the archive and the writer's partial bytes survive the cleanup |
| DeploymentPackageCreator.BuildThenCleanup | src/OctopusWrapper/DeploymentPackageCreator.cs:38-53 | the try/finally: whatever the build did, both roles' copies are deleted, no folder but the destination folder is created, and the build's result, script and output bytes are carried through the cleanup |
| DeploymentPackageCreator.CreateDeploymentPackage | src/OctopusWrapper/DeploymentPackageCreator.cs:27-54 | a staging failure throws with no cleanup; once staged, the cleanup runs on success and failure alike, so no copy remains, no folder but the destination folder and no file but the script and the output file appears, and no other file is lost; a failure before any write leaves exactly the cleanup of the staged file system; with separate scratch folders each staged folder ends as its cleanup alone would leave it, and without leftovers exactly as it started; with a valid version the script is kept; on success the manifest is `<product>.Deploy` with the fixed description and author, the script first and then one entry per staged copy, and the output file holds the writer's archive; on ArchiveWriteFailed it holds the bytes the writer produced before throwing on such a manifest |

## Left out

- File.Copy, File.Delete, File.WriteAllText and FileStream failures other than a missing folder (locked files, permissions, a full disk) are not modelled; the model has no per-file I/O errors.
- Other exceptions the source can raise are not modelled: `PopulateFiles` failing on a missing source file, `Path.Combine` rejecting invalid path characters, and `Directory.CreateDirectory` failing.
- Folders and files are identified by their path string. Windows paths are case-insensitive and `Path.GetTempPath()` ends with a separator, so two spellings of one folder are two folders in the model. `SeparateFolders` compares spellings, and the round-trip guarantees of `CreateDeploymentPackage` rely on it.
- An exception thrown inside the `finally` would replace the build's exception; in the model the cleanup's folders always exist, so that path cannot occur.
- Globbing is a case-sensitive suffix test; Windows matches `*.nupkg` case-insensitively and may also match 8.3 short names.
- Folders are flat keys: `Directory.CreateDirectory` creates only the destination folder itself, not missing parents.
- `Path.Combine` follows the Windows .NET Framework rule (separators `\`, `/` and `:`); path validation and invalid characters are not modelled.
- SemanticVersion.Parse, PackageBuilder.GetFullName and PackageBuilder.Save are foreign library code: they are the `validSemVer`, `fullName` and `save` fields of `Environment`. How `PopulateFiles` resolves a source path and target folder inside the archive is not modelled; an entry is the (source, target) pair the creator passes.
- `Path.GetTempPath()` is the `tempPath` field of `Environment`.
- The `Console.WriteLine` log message is not modelled.
- Directory.GetFiles order is unspecified, so content groups are stated as multisets, not sequences, and the archive in the output file is stated for a manifest built from some listing order.
- The script template's line terminator is modelled as "\n". The verbatim literal takes whatever line ending the source file was checked out with.
- Program.cs (argument check, exit code, paths under the current directory) is not part of this model. Its constructor call passes eight arguments; the modelled creator takes six.
- Concurrent runs against the same folders are not modelled.
- Metadata.ScriptRoundTrip: holds only for values without a double quote or a line break. The template does not escape values; a PowerShell `$` inside a value is also not considered.
- DeploymentPackageCreator.OutputFile: the equality with `Combine(destinationFolder, fullName) + ".nupkg"` is stated only for a non-empty, non-rooted canonical name.

=== FILE: creator.dfy ===
/** DeploymentPackageCreator: stages the NuGet and Chocolatey packages, builds the Octopus
    deployment package around them and the metadata script, and always deletes the staged copies
    once the build has been attempted. */
module DeploymentPackageCreator {
  import opened Results
  import opened Paths
  import opened Exceptions
  import opened Files
  import opened Staging
  import opened Metadata
  import opened Manifests

  /** The six constructor arguments. */
  datatype Creator = Creator(
    nugetsFolderFullPath: string,
    chocosFolderFullPath: string,
    deployFolderFullPath: string,
    productName: string,
    version: string,
    branch: string)

  /** What PackageBuilder.Save did with the output stream: wrote the whole archive, or threw
      after writing part of it. */
  datatype SaveOutcome = Saved(archive: seq<bv8>) | Threw(partial: seq<bv8>)

  /** Everything the creator uses but does not define: the temporary folder, NuGet's version
      parser, its canonical package name, and its archive writer. */
  datatype Environment = Environment(
    tempPath: string,
    validSemVer: string -> bool,
    fullName: (string, string) -> string,
    save: (Manifest, FileSystem) -> SaveOutcome)

  /** A saved deployment package: the manifest that was serialised and the file written. */
  datatype Package = Package(manifest: Manifest, file: FilePath)

  const ScriptName: string := "Metadata.ps1"

  /** The extension of the output file. */
  const ArchiveExtension: string := ".nupkg"

  /** The manifest id of the deployment package of a product. */
  function DeployId(productName: string): string {
    productName + ".Deploy"
  }

  /** The manifest description of the deployment package of a product. */
  function DeployDescription(productName: string): string {
    "Octopus package for release " + productName + "."
  }

  /** The entry of the metadata script: the file written in the temporary folder, placed at the
      archive root under its own name. */
  function ScriptEntry(tempPath: string): ManifestFile {
    ManifestFile(FilePath(tempPath, ScriptName), ScriptName)
  }

  /** AddScript: write the script body to the temporary folder, then add it as an entry. A missing
      temporary folder throws before any entry is added. */
  function AddScript(fs: FileSystem, tempPath: string, m: Manifest, scriptBody: string): (e: Effect<Manifest>)
    ensures e.result.Success? <==> tempPath in fs
    ensures e.result.Failure? ==> e.fs == fs && e.result.error == DirectoryNotFound(tempPath)
    ensures e.result.Success? ==> e.result.value == m.(files := m.files + [ScriptEntry(tempPath)])
    ensures e.result.Success? ==>
      && e.fs.Keys == fs.Keys
      && e.fs[tempPath].Keys == fs[tempPath].Keys + {ScriptName}
      && e.fs[tempPath][ScriptName] == Chars(scriptBody)
      && (forall n :: n in fs[tempPath] && n != ScriptName ==> e.fs[tempPath][n] == fs[tempPath][n])
    ensures forall d :: d in fs && d != tempPath ==> d in e.fs && e.fs[d] == fs[d]
  {
    var deployFile := FilePath(tempPath, ScriptName);
    var written := WriteAllText(fs, deployFile, scriptBody);
    if written.result.Failure? then Effect(written.fs, Failure(written.result.error))
    else Effect(written.fs, Success(m.(files := m.files + [ManifestFile(deployFile, ScriptName)])))
  }

  /** The script file AddScript leaves in the temporary folder reads back as the release's five
      assignments, when the branch, version and product name need no escaping. */
  lemma ScriptFileReadsBack(fs: FileSystem, c: Creator, tempPath: string, m: Manifest)
    requires tempPath in fs && '.' in c.version
    requires Plain(c.branch) && Plain(c.version) && Plain(c.productName)
    ensures GenerateMetadataScript(c.branch, c.version, c.productName).Success?
    ensures var e := AddScript(fs, tempPath, m, GenerateMetadataScript(c.branch, c.version, c.productName).value);
      && e.result.Success?
      && e.fs[tempPath][ScriptName].Chars?
      && ParseScript(e.fs[tempPath][ScriptName].text) == Read(ScriptAssignments(c.branch, c.version, c.productName))
  {
    ScriptRoundTrip(c.branch, c.version, c.productName);
  }

  /** The output file: the canonical package name plus the extension, in the destination folder.
      For a plain name its full path is `Combine(destinationFolder, fullName) + ".nupkg"`. */
  function OutputFile(destinationFolder: string, fullName: string): (file: FilePath)
    ensures file.dir == destinationFolder && EndsWith(file.name, ArchiveExtension)
    ensures |fullName| > 0 && !IsPathRooted(fullName) && !IsPathRooted(fullName + ArchiveExtension)
      ==> file.FullName() == Combine(destinationFolder, fullName) + ArchiveExtension
  {
    AppendEndsWith(fullName, ArchiveExtension);
    FilePath(destinationFolder, fullName + ArchiveExtension)
  }

  /** SavePackage: create the destination folder if it is absent (never wiping it), create or
      truncate the output file, and let the archive writer fill it. The file ends up holding what
      the writer wrote: the whole archive, or, if the writer throws, the part written so far. */
  function SavePackage(env: Environment, m: Manifest, fs: FileSystem, destinationFolder: string): (e: Effect<FilePath>)
    ensures e.fs.Keys == fs.Keys + {destinationFolder}
    ensures forall d :: d in fs && d != destinationFolder ==> e.fs[d] == fs[d]
    ensures var file := OutputFile(destinationFolder, env.fullName(m.id, m.version));
      && e.fs[destinationFolder].Keys == (if destinationFolder in fs then fs[destinationFolder].Keys else {}) + {file.name}
      && (destinationFolder in fs ==>
            forall n :: n in fs[destinationFolder] && n != file.name ==> e.fs[destinationFolder][n] == fs[destinationFolder][n])
    ensures var file := OutputFile(destinationFolder, env.fullName(m.id, m.version));
      match env.save(m, CreateFile(fs, file))
      case Saved(archive) => e.result == Success(file) && e.fs[destinationFolder][file.name] == Binary(archive)
      case Threw(partial) => e.result == Failure(ArchiveWriteFailed) && e.fs[destinationFolder][file.name] == Binary(partial)
  {
    var file := OutputFile(destinationFolder, env.fullName(m.id, m.version));
    var outcome := env.save(m, CreateFile(fs, file));
    var written := if outcome.Saved? then outcome.archive else outcome.partial;
    Effect(WriteBytes(fs, file, written), if outcome.Saved? then Success(file) else Failure(ArchiveWriteFailed))
  }

  /** The archive writer completes whatever it is given. */
  ghost predicate WriterAlwaysSaves(env: Environment) {
    forall m, g :: env.save(m, g).Saved?
  }

  /** The archive writer throws whatever it is given. */
  ghost predicate WriterAlwaysThrows(env: Environment) {
    forall m, g :: env.save(m, g).Threw?
  }

  /** The file system the archive writer is handed when the build gets that far: the metadata
      script written to the temporary folder, then the output file created empty. */
  function WriterInput(c: Creator, env: Environment, fs: FileSystem, file: FilePath): FileSystem {
    match GenerateMetadataScript(c.branch, c.version, c.productName)
    case Success(body) => CreateFile(WriteAllText(fs, FilePath(env.tempPath, ScriptName), body).fs, file)
    case Failure(_) => fs
  }

  /** The output file in `after` holds the complete archive the writer produced for `m` from `input`. */
  predicate HoldsArchive(env: Environment, m: Manifest, input: FileSystem, after: FileSystem, file: FilePath) {
    && env.save(m, input).Saved?
    && file.dir in after && file.name in after[file.dir]
    && after[file.dir][file.name] == Binary(env.save(m, input).archive)
  }

  /** The archive writer threw on `m` and `input`, and the output file in `after` holds the part it
      wrote before throwing. */
  predicate WriterThrew(env: Environment, m: Manifest, input: FileSystem, after: FileSystem, file: FilePath) {
    && env.save(m, input).Threw?
    && file.dir in after && file.name in after[file.dir]
    && after[file.dir][file.name] == Binary(env.save(m, input).partial)
  }

  /** Every file of `before`, except the metadata script in the temporary folder and the output
      file, is still in `after` with its contents. */
  predicate KeepsOtherFiles(before: FileSystem, after: FileSystem, tempPath: string, output: FilePath) {
    forall d, n {:trigger n in before[d]} ::
      && d in before && n in before[d]
      && !(d == tempPath && n == ScriptName) && !(d == output.dir && n == output.name)
      ==> d in after && n in after[d] && after[d][n] == before[d][n]
  }

  /** `after` is `before` followed by one content group per role: the copies listed in the NuGet
      folder, then those listed in the Chocolatey folder. */
  predicate ContentAdded(before: Manifest, after: Manifest, c: Creator, fs: FileSystem)
    requires c.nugetsFolderFullPath in fs && c.chocosFolderFullPath in fs
  {
    var nzips := Matching(fs[c.nugetsFolderFullPath], Suffix(Nugets));
    var czips := Matching(fs[c.chocosFolderFullPath], Suffix(Chocos));
    var k := |before.files|;
    && after.(files := before.files) == before
    && |after.files| == k + |nzips| + |czips|
    && after.files[..k] == before.files
    && IsContentGroup(after.files[k..k + |nzips|], c.nugetsFolderFullPath, nzips)
    && IsContentGroup(after.files[k + |nzips|..], c.chocosFolderFullPath, czips)
  }

  /** AddContent: one entry per `*.nzip` of the NuGet folder, then one per `*.czip` of the
      Chocolatey folder, in listing order. */
  method AddContent(c: Creator, fs: FileSystem, m: Manifest) returns (r: Result<Manifest, Exception>)
    ensures c.nugetsFolderFullPath !in fs ==> r == Failure(DirectoryNotFound(c.nugetsFolderFullPath))
    ensures c.nugetsFolderFullPath in fs && c.chocosFolderFullPath !in fs
      ==> r == Failure(DirectoryNotFound(c.chocosFolderFullPath))
    ensures c.nugetsFolderFullPath in fs && c.chocosFolderFullPath in fs
      ==> r.Success? && ContentAdded(m, r.value, c, fs)
  {
    var nzips :- GetFiles(fs, c.nugetsFolderFullPath, Suffix(Nugets));
    var withNugets := m.(files := m.files + ContentEntries(c.nugetsFolderFullPath, nzips));
    var czips :- GetFiles(fs, c.chocosFolderFullPath, Suffix(Chocos));
    var withChocos := withNugets.(files := withNugets.files + ContentEntries(c.chocosFolderFullPath, czips));
    var k := |m.files|;
    ContentEntriesGroup(c.nugetsFolderFullPath, nzips, Matching(fs[c.nugetsFolderFullPath], Suffix(Nugets)));
    ContentEntriesGroup(c.chocosFolderFullPath, czips, Matching(fs[c.chocosFolderFullPath], Suffix(Chocos)));
    assert |multiset(nzips)| == |multiset(Matching(fs[c.nugetsFolderFullPath], Suffix(Nugets)))|;
    assert withChocos.files[k..k + |nzips|] == ContentEntries(c.nugetsFolderFullPath, nzips);
    assert withChocos.files[k + |nzips|..] == ContentEntries(c.chocosFolderFullPath, czips);
    return Success(withChocos);
  }

  /** The manifest of a deployment package built over the staged folders `staged`: the header, the
      metadata script entry first, then the NuGet copies, then the Chocolatey copies. */
  predicate IsDeployManifest(m: Manifest, id: string, description: string, c: Creator, env: Environment, staged: FileSystem)
    requires c.nugetsFolderFullPath in staged && c.chocosFolderFullPath in staged
  {
    var header := NewManifest(id, description, c.version).(files := [ScriptEntry(env.tempPath)]);
    ContentAdded(header, m, c, staged)
  }

  /** Every file of `after` was already in `before` or is one of the files `written`. */
  predicate AddsOnly(before: FileSystem, after: FileSystem, written: set<FilePath>) {
    forall d, n {:trigger n in after[d]} ::
      d in after && n in after[d] ==> (d in before && n in before[d]) || FilePath(d, n) in written
  }

  /** Every file of `before` other than the one at `path` is still in `after` with its contents. */
  predicate KeepsAllBut(before: FileSystem, after: FileSystem, path: FilePath) {
    forall d, n {:trigger n in before[d]} :: d in before && n in before[d] && !(d == path.dir && n == path.name)
      ==> d in after && n in after[d] && after[d][n] == before[d][n]
  }

  /** Writing one file keeps every other file and adds no file but that one. */
  lemma WriteKeeps(fs: FileSystem, path: FilePath, bytes: seq<bv8>)
    ensures KeepsAllBut(fs, WriteBytes(fs, path, bytes), path)
    ensures AddsOnly(fs, WriteBytes(fs, path, bytes), {path})
  {
    var after := WriteBytes(fs, path, bytes);
    forall d, n | d in after && n in after[d]
      ensures (d in fs && n in fs[d]) || FilePath(d, n) in {path}
    {
      if d == path.dir && n == path.name {
        assert FilePath(d, n) == path;
      }
    }
  }

  /** Saving replaces only the output file and adds no other. */
  lemma SaveKeeps(env: Environment, m: Manifest, fs: FileSystem, destinationFolder: string)
    ensures var file := OutputFile(destinationFolder, env.fullName(m.id, m.version));
      && KeepsAllBut(fs, SavePackage(env, m, fs, destinationFolder).fs, file)
      && AddsOnly(fs, SavePackage(env, m, fs, destinationFolder).fs, {file})
  {
    var file := OutputFile(destinationFolder, env.fullName(m.id, m.version));
    var outcome := env.save(m, CreateFile(fs, file));
    var written := if outcome.Saved? then outcome.archive else outcome.partial;
    WriteKeeps(fs, file, written);
    assert SavePackage(env, m, fs, destinationFolder).fs == WriteBytes(fs, file, written);
  }

  /** Adding only `first`, then only `second`, adds only those two. */
  lemma AddsCompose(a: FileSystem, b: FileSystem, c: FileSystem, first: FilePath, second: FilePath)
    requires AddsOnly(a, b, {first}) && AddsOnly(b, c, {second})
    ensures AddsOnly(a, c, {first, second})
  {
  }

  /** Keeping all files but the script, then all but the output file, keeps all but those two. */
  lemma KeepsCompose(a: FileSystem, b: FileSystem, c: FileSystem, tempPath: string, file: FilePath)
    requires KeepsAllBut(a, b, FilePath(tempPath, ScriptName)) && KeepsAllBut(b, c, file)
    ensures KeepsOtherFiles(a, c, tempPath, file)
  {
  }

  /** When the archive writer completes, saving succeeds and the output file holds the archive. */
  lemma SaveHoldsArchive(env: Environment, m: Manifest, fs: FileSystem, destinationFolder: string)
    requires env.save(m, CreateFile(fs, OutputFile(destinationFolder, env.fullName(m.id, m.version)))).Saved?
    ensures var file := OutputFile(destinationFolder, env.fullName(m.id, m.version));
      var saved := SavePackage(env, m, fs, destinationFolder);
      saved.result == Success(file) && HoldsArchive(env, m, CreateFile(fs, file), saved.fs, file)
  {
  }

  /** The second half of CreateDeployPackage, once the script is written: add the staged copies
      to the manifest, then save it. Only the output file changes. */
  method AddContentAndSave(c: Creator, env: Environment, fs: FileSystem, withScript: Manifest)
    returns (fs': FileSystem, r: Result<Package, Exception>)
    ensures c.nugetsFolderFullPath !in fs ==> fs' == fs && r == Failure(DirectoryNotFound(c.nugetsFolderFullPath))
    ensures c.nugetsFolderFullPath in fs && c.chocosFolderFullPath !in fs
      ==> fs' == fs && r == Failure(DirectoryNotFound(c.chocosFolderFullPath))
    ensures c.nugetsFolderFullPath in fs && c.chocosFolderFullPath in fs
      ==> && (r.Success? || r == Failure(ArchiveWriteFailed))
          && (WriterAlwaysSaves(env) ==> r.Success?)
          && (WriterAlwaysThrows(env) ==> r == Failure(ArchiveWriteFailed))
    ensures fs.Keys <= fs'.Keys <= fs.Keys + {c.deployFolderFullPath}
    ensures forall d :: d in fs && d != c.deployFolderFullPath ==> fs'[d] == fs[d]
    ensures KeepsAllBut(fs, fs', OutputFile(c.deployFolderFullPath, env.fullName(withScript.id, withScript.version)))
    ensures AddsOnly(fs, fs', {OutputFile(c.deployFolderFullPath, env.fullName(withScript.id, withScript.version))})
    ensures r == Failure(ArchiveWriteFailed) ==>
      var file := OutputFile(c.deployFolderFullPath, env.fullName(withScript.id, withScript.version));
      && c.deployFolderFullPath in fs' && file.name in fs'[c.deployFolderFullPath]
      && c.nugetsFolderFullPath in fs && c.chocosFolderFullPath in fs
      && exists m :: ContentAdded(withScript, m, c, fs) && WriterThrew(env, m, CreateFile(fs, file), fs', file)
    ensures r.Success? ==>
      && c.nugetsFolderFullPath in fs && c.chocosFolderFullPath in fs
      && ContentAdded(withScript, r.value.manifest, c, fs)
      && r.value.file == OutputFile(c.deployFolderFullPath, env.fullName(withScript.id, withScript.version))
      && HoldsArchive(env, r.value.manifest, CreateFile(fs, r.value.file), fs', r.value.file)
  {
    var withContent := AddContent(c, fs, withScript);
    if withContent.Failure? {
      return fs, Failure(withContent.error);
    }
    var m := withContent.value;
    assert m.id == withScript.id && m.version == withScript.version;
    var file := OutputFile(c.deployFolderFullPath, env.fullName(m.id, m.version));
    var saved := SavePackage(env, m, fs, c.deployFolderFullPath);
    SaveKeeps(env, m, fs, c.deployFolderFullPath);
    fs' := saved.fs;
    if saved.result.Failure? {
      assert WriterThrew(env, m, CreateFile(fs, file), fs', file);
      return fs', Failure(saved.result.error);
    }
    SaveHoldsArchive(env, m, fs, c.deployFolderFullPath);
    r := Success(Package(m, saved.result.value));
  }

  /** CreateDeployPackage: parse the version, set the header and the author, add the metadata
      script, add the staged copies, save. The first exception ends the build. */
  method CreateDeployPackage(c: Creator, env: Environment, fs: FileSystem, id: string, description: string)
    returns (fs': FileSystem, r: Result<Package, Exception>)
    ensures !env.validSemVer(c.version) ==> fs' == fs && r == Failure(InvalidVersion(c.version))
    ensures env.validSemVer(c.version) && '.' !in c.version ==> fs' == fs && r == Failure(IndexOutOfRange)
    ensures env.validSemVer(c.version) && '.' in c.version && env.tempPath !in fs
      ==> fs' == fs && r == Failure(DirectoryNotFound(env.tempPath))
    ensures env.validSemVer(c.version) && '.' in c.version && env.tempPath in fs && c.nugetsFolderFullPath !in fs
      ==> r == Failure(DirectoryNotFound(c.nugetsFolderFullPath))
    ensures env.validSemVer(c.version) && '.' in c.version && env.tempPath in fs
      && c.nugetsFolderFullPath in fs && c.chocosFolderFullPath !in fs
      ==> r == Failure(DirectoryNotFound(c.chocosFolderFullPath))
    ensures env.validSemVer(c.version) && '.' in c.version && env.tempPath in fs
      && c.nugetsFolderFullPath in fs && c.chocosFolderFullPath in fs
      ==> && (r.Success? || r == Failure(ArchiveWriteFailed))
          && (WriterAlwaysSaves(env) ==> r.Success?)
          && (WriterAlwaysThrows(env) ==> r == Failure(ArchiveWriteFailed))
    ensures fs.Keys <= fs'.Keys <= fs.Keys + {c.deployFolderFullPath}
    ensures forall d :: d in fs && d != env.tempPath && d != c.deployFolderFullPath ==> fs'[d] == fs[d]
    ensures KeepsOtherFiles(fs, fs', env.tempPath, OutputFile(c.deployFolderFullPath, env.fullName(id, c.version)))
    ensures AddsOnly(fs, fs', {FilePath(env.tempPath, ScriptName), OutputFile(c.deployFolderFullPath, env.fullName(id, c.version))})
    ensures env.validSemVer(c.version) && '.' in c.version && env.tempPath in fs ==>
      && env.tempPath in fs' && ScriptName in fs'[env.tempPath]
      && fs'[env.tempPath][ScriptName] == Chars(GenerateMetadataScript(c.branch, c.version, c.productName).value)
    ensures r == Failure(ArchiveWriteFailed) ==>
      var file := OutputFile(c.deployFolderFullPath, env.fullName(id, c.version));
      && c.deployFolderFullPath in fs' && file.name in fs'[c.deployFolderFullPath]
      && c.nugetsFolderFullPath in fs && c.chocosFolderFullPath in fs
      && exists m :: IsDeployManifest(m, id, description, c, env, fs) && WriterThrew(env, m, WriterInput(c, env, fs, file), fs', file)
    ensures r.Success? ==>
      && c.nugetsFolderFullPath in fs && c.chocosFolderFullPath in fs
      && IsDeployManifest(r.value.manifest, id, description, c, env, fs)
      && r.value.file == OutputFile(c.deployFolderFullPath, env.fullName(id, c.version))
      && HoldsArchive(env, r.value.manifest, WriterInput(c, env, fs, r.value.file), fs', r.value.file)
  {
    if !env.validSemVer(c.version) {
      return fs, Failure(InvalidVersion(c.version));
    }
    var script := GenerateMetadataScript(c.branch, c.version, c.productName);
    if script.Failure? {
      return fs, Failure(script.error);
    }
    if env.tempPath !in fs {
      return fs, Failure(DirectoryNotFound(env.tempPath));
    }
    fs', r := ScriptThenBuild(c, env, fs, id, description);
  }

  /** CreateDeployPackage once the version is valid and the temporary folder exists: the script
      is written, so the build ends with the staged copies listed and the archive saved, or with
      the exception that stopped it. */
  method ScriptThenBuild(c: Creator, env: Environment, fs: FileSystem, id: string, description: string)
    returns (fs': FileSystem, r: Result<Package, Exception>)
    requires env.validSemVer(c.version) && '.' in c.version && env.tempPath in fs
    ensures c.nugetsFolderFullPath !in fs ==> r == Failure(DirectoryNotFound(c.nugetsFolderFullPath))
    ensures c.nugetsFolderFullPath in fs && c.chocosFolderFullPath !in fs
      ==> r == Failure(DirectoryNotFound(c.chocosFolderFullPath))
    ensures c.nugetsFolderFullPath in fs && c.chocosFolderFullPath in fs
      ==> && (r.Success? || r == Failure(ArchiveWriteFailed))
          && (WriterAlwaysSaves(env) ==> r.Success?)
          && (WriterAlwaysThrows(env) ==> r == Failure(ArchiveWriteFailed))
    ensures fs.Keys <= fs'.Keys <= fs.Keys + {c.deployFolderFullPath}
    ensures forall d :: d in fs && d != env.tempPath && d != c.deployFolderFullPath ==> fs'[d] == fs[d]
    ensures KeepsOtherFiles(fs, fs', env.tempPath, OutputFile(c.deployFolderFullPath, env.fullName(id, c.version)))
    ensures AddsOnly(fs, fs', {FilePath(env.tempPath, ScriptName), OutputFile(c.deployFolderFullPath, env.fullName(id, c.version))})
    ensures && env.tempPath in fs' && ScriptName in fs'[env.tempPath]
            && fs'[env.tempPath][ScriptName] == Chars(GenerateMetadataScript(c.branch, c.version, c.productName).value)
    ensures r == Failure(ArchiveWriteFailed) ==>
      var file := OutputFile(c.deployFolderFullPath, env.fullName(id, c.version));
      && c.deployFolderFullPath in fs' && file.name in fs'[c.deployFolderFullPath]
      && c.nugetsFolderFullPath in fs && c.chocosFolderFullPath in fs
      && exists m :: IsDeployManifest(m, id, description, c, env, fs) && WriterThrew(env, m, WriterInput(c, env, fs, file), fs', file)
    ensures r.Success? ==>
      && c.nugetsFolderFullPath in fs && c.chocosFolderFullPath in fs
      && IsDeployManifest(r.value.manifest, id, description, c, env, fs)
      && r.value.file == OutputFile(c.deployFolderFullPath, env.fullName(id, c.version))
      && HoldsArchive(env, r.value.manifest, WriterInput(c, env, fs, r.value.file), fs', r.value.file)
  {
    var builder := NewManifest(id, description, c.version);
    var script := GenerateMetadataScript(c.branch, c.version, c.productName).value;
    var added := AddScript(fs, env.tempPath, builder, script);
    var scriptFile := FilePath(env.tempPath, ScriptName);
    assert added.fs == WriteAllText(fs, scriptFile, script).fs;
    assert KeepsAllBut(fs, added.fs, scriptFile);
    assert AddsOnly(fs, added.fs, {scriptFile});
    ScriptKeepsCopies(fs, added.fs, env.tempPath, c);
    var header := builder.(files := [ScriptEntry(env.tempPath)]);
    assert added.result.value == header;
    var output := OutputFile(c.deployFolderFullPath, env.fullName(id, c.version));
    fs', r := AddContentAndSave(c, env, added.fs, header);
    KeepsCompose(fs, added.fs, fs', env.tempPath, output);
    AddsCompose(fs, added.fs, fs', scriptFile, output);
    assert WriterInput(c, env, fs, output) == CreateFile(added.fs, output);
    ScriptSurvivesSave(added.fs, fs', env.tempPath, output);
    if r.Success? {
      ContentAddedSameCopies(header, r.value.manifest, c, added.fs, fs);
    }
    if r == Failure(ArchiveWriteFailed) {
      ghost var m :| ContentAdded(header, m, c, added.fs) && WriterThrew(env, m, CreateFile(added.fs, output), fs', output);
      ContentAddedSameCopies(header, m, c, added.fs, fs);
      assert IsDeployManifest(m, id, description, c, env, fs);
    }
  }

  /** Saving keeps the script: the output file is a `.nupkg`, never `Metadata.ps1`. */
  lemma ScriptSurvivesSave(written: FileSystem, saved: FileSystem, tempPath: string, output: FilePath)
    requires tempPath in written && ScriptName in written[tempPath]
    requires EndsWith(output.name, ArchiveExtension)
    requires KeepsAllBut(written, saved, output)
    ensures tempPath in saved && ScriptName in saved[tempPath] && saved[tempPath][ScriptName] == written[tempPath][ScriptName]
  {
    EndsWithLast(ScriptName, ArchiveExtension);
  }

  /** Whether a manifest adds the staged copies depends only on the copies listed in the two
      staged folders. */
  lemma ContentAddedSameCopies(before: Manifest, after: Manifest, c: Creator, fs: FileSystem, other: FileSystem)
    requires c.nugetsFolderFullPath in fs && c.chocosFolderFullPath in fs
    requires c.nugetsFolderFullPath in other && c.chocosFolderFullPath in other
    requires Matching(fs[c.nugetsFolderFullPath], Suffix(Nugets)) == Matching(other[c.nugetsFolderFullPath], Suffix(Nugets))
    requires Matching(fs[c.chocosFolderFullPath], Suffix(Chocos)) == Matching(other[c.chocosFolderFullPath], Suffix(Chocos))
    ensures ContentAdded(before, after, c, fs) == ContentAdded(before, after, c, other)
  {
  }

  /** Writing the script leaves the staged folders' listings of copies as they were: the script's
      name matches neither suffix. */
  lemma ScriptKeepsCopies(fs: FileSystem, written: FileSystem, tempPath: string, c: Creator)
    requires tempPath in fs && fs.Keys == written.Keys
    requires forall d :: d in fs && d != tempPath ==> written[d] == fs[d]
    requires written[tempPath].Keys == fs[tempPath].Keys + {ScriptName}
    ensures c.nugetsFolderFullPath in fs ==>
      Matching(written[c.nugetsFolderFullPath], Suffix(Nugets)) == Matching(fs[c.nugetsFolderFullPath], Suffix(Nugets))
    ensures c.chocosFolderFullPath in fs ==>
      Matching(written[c.chocosFolderFullPath], Suffix(Chocos)) == Matching(fs[c.chocosFolderFullPath], Suffix(Chocos))
  {
    EndsWithLast(ScriptName, Suffix(Nugets));
    EndsWithLast(ScriptName, Suffix(Chocos));
  }

  /** Both source folders exist, so both staging loops can list them. */
  predicate FoldersExist(c: Creator, fs: FileSystem) {
    c.nugetsFolderFullPath in fs && c.chocosFolderFullPath in fs
  }

  /** The temporary folder and the destination folder are neither of the staged folders. */
  predicate SeparateFolders(c: Creator, env: Environment) {
    && env.tempPath != c.nugetsFolderFullPath && env.tempPath != c.chocosFolderFullPath
    && c.deployFolderFullPath != c.nugetsFolderFullPath && c.deployFolderFullPath != c.chocosFolderFullPath
  }

  /** Neither staged folder holds a leftover copy of its own role. */
  predicate NoLeftoverCopies(c: Creator, fs: FileSystem)
    requires FoldersExist(c, fs)
  {
    NoneStaged(fs[c.nugetsFolderFullPath], Nugets) && NoneStaged(fs[c.chocosFolderFullPath], Chocos)
  }

  /** Both staging loops, the NuGet folder first. */
  function StageAll(c: Creator, fs: FileSystem): (staged: FileSystem)
    requires FoldersExist(c, fs)
    ensures staged.Keys == fs.Keys
  {
    var nugets := fs[c.nugetsFolderFullPath := Stage(fs[c.nugetsFolderFullPath], Nugets)];
    nugets[c.chocosFolderFullPath := Stage(nugets[c.chocosFolderFullPath], Chocos)]
  }

  /** Staging touches no folder but the two staged ones. */
  lemma StageAllElsewhere(c: Creator, fs: FileSystem, d: string)
    requires FoldersExist(c, fs) && d in fs
    requires d != c.nugetsFolderFullPath && d != c.chocosFolderFullPath
    ensures StageAll(c, fs)[d] == fs[d]
  {
    var nugets := fs[c.nugetsFolderFullPath := Stage(fs[c.nugetsFolderFullPath], Nugets)];
    assert nugets[d] == fs[d];
    assert StageAll(c, fs) == nugets[c.chocosFolderFullPath := Stage(nugets[c.chocosFolderFullPath], Chocos)];
  }

  /** Both cleanup loops, the NuGet folder first. */
  function CleanupAll(c: Creator, fs: FileSystem): (cleaned: FileSystem)
    requires FoldersExist(c, fs)
    ensures cleaned.Keys == fs.Keys
  {
    var nugets := fs[c.nugetsFolderFullPath := Cleanup(fs[c.nugetsFolderFullPath], Nugets)];
    nugets[c.chocosFolderFullPath := Cleanup(nugets[c.chocosFolderFullPath], Chocos)]
  }

  /** The cleanup touches no folder but the two staged ones. */
  lemma CleanupAllElsewhere(c: Creator, fs: FileSystem, d: string)
    requires FoldersExist(c, fs) && d in fs
    requires d != c.nugetsFolderFullPath && d != c.chocosFolderFullPath
    ensures CleanupAll(c, fs)[d] == fs[d]
  {
  }

  /** After the cleanup no `*.nzip` is left in the NuGet folder and no `*.czip` in the Chocolatey
      folder, whatever the folders held before; every other file is untouched. */
  lemma CleanupLeavesNoCopies(c: Creator, fs: FileSystem)
    requires FoldersExist(c, fs)
    ensures NoLeftoverCopies(c, CleanupAll(c, fs))
    ensures forall d, n ::
      (d in fs && n in fs[d] && !EndsWith(n, Suffix(Nugets)) && !EndsWith(n, Suffix(Chocos)))
      ==> (n in CleanupAll(c, fs)[d] && CleanupAll(c, fs)[d][n] == fs[d][n])
  {
  }

  /** Staging then cleaning up restores both folders when neither held leftover copies, whether
      they are two folders or one. */
  lemma StageCleanupRoundTrip(c: Creator, fs: FileSystem, built: FileSystem)
    requires FoldersExist(c, fs) && NoLeftoverCopies(c, fs)
    requires FoldersExist(c, built)
    requires built[c.nugetsFolderFullPath] == StageAll(c, fs)[c.nugetsFolderFullPath]
    requires built[c.chocosFolderFullPath] == StageAll(c, fs)[c.chocosFolderFullPath]
    ensures CleanupAll(c, built)[c.nugetsFolderFullPath] == fs[c.nugetsFolderFullPath]
    ensures CleanupAll(c, built)[c.chocosFolderFullPath] == fs[c.chocosFolderFullPath]
  {
    var n := c.nugetsFolderFullPath;
    if n == c.chocosFolderFullPath {
      SharedFolderRoundTrip(fs[n]);
    } else {
      StageThenCleanup(fs[n], Nugets);
      StageThenCleanup(fs[c.chocosFolderFullPath], Chocos);
    }
  }

  /** Without leftovers, the copies the build lists are one per package of each folder: exactly
      the `<package>.nzip` and `<package>.czip` names, as many as there are packages. */
  lemma StagedCopiesArePackages(c: Creator, fs: FileSystem)
    requires FoldersExist(c, fs) && NoLeftoverCopies(c, fs)
    ensures Matching(StageAll(c, fs)[c.nugetsFolderFullPath], Suffix(Nugets))
         == CopyNames(Packages(fs[c.nugetsFolderFullPath]), Nugets)
    ensures Matching(StageAll(c, fs)[c.chocosFolderFullPath], Suffix(Chocos))
         == CopyNames(Packages(fs[c.chocosFolderFullPath]), Chocos)
    ensures |Matching(StageAll(c, fs)[c.nugetsFolderFullPath], Suffix(Nugets))| == |Packages(fs[c.nugetsFolderFullPath])|
    ensures |Matching(StageAll(c, fs)[c.chocosFolderFullPath], Suffix(Chocos))| == |Packages(fs[c.chocosFolderFullPath])|
  {
    var n := c.nugetsFolderFullPath;
    var ch := c.chocosFolderFullPath;
    StagedCopies(fs[n], Nugets);
    if n == ch {
      var g := Stage(fs[n], Nugets);
      StageKeepsOtherRoleClean(fs[n], Nugets, Chocos);
      StagePreservesPackages(fs[n], Nugets);
      StagedCopies(g, Chocos);
      StageKeepsOtherRoleCopies(g, Chocos, Nugets);
    } else {
      StagedCopies(fs[ch], Chocos);
    }
  }

  /** A folder the run neither stages, cleans up, nor writes to. */
  predicate Untouched(c: Creator, env: Environment, d: string) {
    && d != c.nugetsFolderFullPath && d != c.chocosFolderFullPath
    && d != env.tempPath && d != c.deployFolderFullPath
  }

  /** Staging, a build that writes only to the temporary and destination folders, and the cleanup
      leave every other folder as it was. */
  lemma RunTouchesOnlyItsFolders(c: Creator, env: Environment, fs: FileSystem, built: FileSystem)
    requires FoldersExist(c, fs) && fs.Keys <= built.Keys
    requires forall d :: d in fs && d != env.tempPath && d != c.deployFolderFullPath ==> built[d] == StageAll(c, fs)[d]
    ensures forall d :: d in fs && Untouched(c, env, d) ==> d in CleanupAll(c, built) && CleanupAll(c, built)[d] == fs[d]
  {
    forall d | d in fs && Untouched(c, env, d)
      ensures CleanupAll(c, built)[d] == fs[d]
    {
      StageAllElsewhere(c, fs, d);
      CleanupAllElsewhere(c, built, d);
    }
  }

  /** Every file of `before` is still in `after` with its contents, except the metadata script,
      the output file, and the copies of each role in that role's staged folder. */
  predicate KeepsAllButCopies(c: Creator, before: FileSystem, after: FileSystem, tempPath: string, output: FilePath) {
    forall d, n {:trigger n in before[d]} ::
      && d in before && n in before[d]
      && !(d == tempPath && n == ScriptName) && !(d == output.dir && n == output.name)
      && !(d == c.nugetsFolderFullPath && EndsWith(n, Suffix(Nugets)))
      && !(d == c.chocosFolderFullPath && EndsWith(n, Suffix(Chocos)))
      ==> d in after && n in after[d] && after[d][n] == before[d][n]
  }

  /** A file that is not a copy of the role staged in its folder survives one staging loop. */
  lemma StageKeepsFile(f: Folder, role: Role, n: string)
    requires n in f && !EndsWith(n, Suffix(role))
    ensures n in Stage(f, role) && Stage(f, role)[n] == f[n]
  {
    if n in CopyNames(Packages(f), role) {
      var p :| p in Packages(f) && n == p + Suffix(role);
      AppendEndsWith(p, Suffix(role));
    }
  }

  /** Staging keeps every file that is not a copy of the role staged in its folder. */
  lemma StageAllKeeps(c: Creator, fs: FileSystem, d: string, n: string)
    requires FoldersExist(c, fs) && d in fs && n in fs[d]
    requires !(d == c.nugetsFolderFullPath && EndsWith(n, Suffix(Nugets)))
    requires !(d == c.chocosFolderFullPath && EndsWith(n, Suffix(Chocos)))
    ensures d in StageAll(c, fs) && n in StageAll(c, fs)[d] && StageAll(c, fs)[d][n] == fs[d][n]
  {
    var nugets := fs[c.nugetsFolderFullPath := Stage(fs[c.nugetsFolderFullPath], Nugets)];
    if d == c.nugetsFolderFullPath {
      StageKeepsFile(fs[d], Nugets, n);
    }
    assert n in nugets[d] && nugets[d][n] == fs[d][n];
    if d == c.chocosFolderFullPath {
      StageKeepsFile(nugets[d], Chocos, n);
    }
    assert StageAll(c, fs) == nugets[c.chocosFolderFullPath := Stage(nugets[c.chocosFolderFullPath], Chocos)];
  }

  /** The cleanup keeps every file that is not a copy of the role cleaned up in its folder. */
  lemma CleanupAllKeeps(c: Creator, fs: FileSystem, d: string, n: string)
    requires FoldersExist(c, fs) && d in fs && n in fs[d]
    requires !(d == c.nugetsFolderFullPath && EndsWith(n, Suffix(Nugets)))
    requires !(d == c.chocosFolderFullPath && EndsWith(n, Suffix(Chocos)))
    ensures d in CleanupAll(c, fs) && n in CleanupAll(c, fs)[d] && CleanupAll(c, fs)[d][n] == fs[d][n]
  {
    var nugets := fs[c.nugetsFolderFullPath := Cleanup(fs[c.nugetsFolderFullPath], Nugets)];
    assert n in nugets[d] && nugets[d][n] == fs[d][n];
    assert CleanupAll(c, fs) == nugets[c.chocosFolderFullPath := Cleanup(nugets[c.chocosFolderFullPath], Chocos)];
  }

  /** Staging, a build that keeps all but the script and the output file, and the cleanup together
      remove nothing but those two files and each role's copies in its own folder. */
  lemma RunKeepsFiles(c: Creator, env: Environment, fs: FileSystem, built: FileSystem, output: FilePath)
    requires FoldersExist(c, fs) && FoldersExist(c, built)
    requires KeepsOtherFiles(StageAll(c, fs), built, env.tempPath, output)
    ensures KeepsAllButCopies(c, fs, CleanupAll(c, built), env.tempPath, output)
  {
    forall d, n |
      && d in fs && n in fs[d]
      && !(d == env.tempPath && n == ScriptName) && !(d == output.dir && n == output.name)
      && !(d == c.nugetsFolderFullPath && EndsWith(n, Suffix(Nugets)))
      && !(d == c.chocosFolderFullPath && EndsWith(n, Suffix(Chocos)))
      ensures d in CleanupAll(c, built) && n in CleanupAll(c, built)[d] && CleanupAll(c, built)[d][n] == fs[d][n]
    {
      RunKeepsFile(c, env, fs, built, output, d, n);
    }
  }

  /** One file of RunKeepsFiles: it survives staging, the build and the cleanup unchanged. */
  lemma RunKeepsFile(c: Creator, env: Environment, fs: FileSystem, built: FileSystem, output: FilePath, d: string, n: string)
    requires FoldersExist(c, fs) && FoldersExist(c, built)
    requires KeepsOtherFiles(StageAll(c, fs), built, env.tempPath, output)
    requires d in fs && n in fs[d]
    requires !(d == env.tempPath && n == ScriptName) && !(d == output.dir && n == output.name)
    requires !(d == c.nugetsFolderFullPath && EndsWith(n, Suffix(Nugets)))
    requires !(d == c.chocosFolderFullPath && EndsWith(n, Suffix(Chocos)))
    ensures d in CleanupAll(c, built) && n in CleanupAll(c, built)[d] && CleanupAll(c, built)[d][n] == fs[d][n]
  {
    StageAllKeeps(c, fs, d, n);
    CleanupAllKeeps(c, built, d, n);
  }

  /** With separate scratch folders, each staged folder ends as cleaning it up alone would leave
      it: the packages and every other file survive, only the role's copies go. */
  lemma RunCleansStagedFolders(c: Creator, fs: FileSystem, built: FileSystem)
    requires FoldersExist(c, fs) && FoldersExist(c, built)
    requires built[c.nugetsFolderFullPath] == StageAll(c, fs)[c.nugetsFolderFullPath]
    requires built[c.chocosFolderFullPath] == StageAll(c, fs)[c.chocosFolderFullPath]
    ensures c.nugetsFolderFullPath != c.chocosFolderFullPath ==>
      && CleanupAll(c, built)[c.nugetsFolderFullPath] == Cleanup(fs[c.nugetsFolderFullPath], Nugets)
      && CleanupAll(c, built)[c.chocosFolderFullPath] == Cleanup(fs[c.chocosFolderFullPath], Chocos)
    ensures c.nugetsFolderFullPath == c.chocosFolderFullPath ==>
      CleanupAll(c, built)[c.nugetsFolderFullPath] == Cleanup(Cleanup(fs[c.nugetsFolderFullPath], Nugets), Chocos)
  {
    var n := c.nugetsFolderFullPath;
    if n == c.chocosFolderFullPath {
      var g := Stage(fs[n], Nugets);
      assert built[n] == Stage(g, Chocos);
      CleanupCommutes(Stage(g, Chocos));
      CleanupAfterStage(g, Chocos);
      CleanupCommutes(g);
      CleanupAfterStage(fs[n], Nugets);
    } else {
      CleanupAfterStage(fs[n], Nugets);
      CleanupAfterStage(fs[c.chocosFolderFullPath], Chocos);
    }
  }

  /** The `finally` block: both delete loops, the NuGet folder first. Once staging has listed both
      folders they exist, so the cleanup itself cannot throw. */
  method CleanupStaged(c: Creator, fs: FileSystem) returns (cleaned: FileSystem)
    requires FoldersExist(c, fs)
    ensures cleaned == CleanupAll(c, fs)
  {
    var cleanedNugets := CleanupRole(fs, c.nugetsFolderFullPath, Nugets);
    var cleanedChocos := CleanupRole(cleanedNugets.value, c.chocosFolderFullPath, Chocos);
    cleaned := cleanedChocos.value;
  }

  /** The output file is a `.nupkg`, never a staged copy, so the cleanup keeps it as it was. */
  lemma OutputSurvivesCleanup(c: Creator, fs: FileSystem, output: FilePath)
    requires FoldersExist(c, fs) && output.dir in fs && output.name in fs[output.dir]
    requires EndsWith(output.name, ArchiveExtension)
    ensures output.dir in CleanupAll(c, fs) && output.name in CleanupAll(c, fs)[output.dir]
    ensures CleanupAll(c, fs)[output.dir][output.name] == fs[output.dir][output.name]
  {
    PackageIsNotStaged(output.name, Nugets);
    PackageIsNotStaged(output.name, Chocos);
    CleanupAllKeeps(c, fs, output.dir, output.name);
  }

  /** A file staging put in a folder is either one the folder already held or a copy of the role
      staged there. */
  lemma StageAllAdds(c: Creator, fs: FileSystem, d: string, n: string)
    requires FoldersExist(c, fs) && d in fs && n in StageAll(c, fs)[d]
    requires !(d == c.nugetsFolderFullPath && EndsWith(n, Suffix(Nugets)))
    requires !(d == c.chocosFolderFullPath && EndsWith(n, Suffix(Chocos)))
    ensures n in fs[d]
  {
    var nugets := fs[c.nugetsFolderFullPath := Stage(fs[c.nugetsFolderFullPath], Nugets)];
    assert StageAll(c, fs) == nugets[c.chocosFolderFullPath := Stage(nugets[c.chocosFolderFullPath], Chocos)];
    assert n in nugets[d];
  }

  /** A file the cleanup leaves was already there and is not a copy of the role cleaned up in its
      folder. */
  lemma CleanupAllRemoves(c: Creator, fs: FileSystem, d: string, n: string)
    requires FoldersExist(c, fs) && d in CleanupAll(c, fs) && n in CleanupAll(c, fs)[d]
    ensures d in fs && n in fs[d]
    ensures !(d == c.nugetsFolderFullPath && EndsWith(n, Suffix(Nugets)))
    ensures !(d == c.chocosFolderFullPath && EndsWith(n, Suffix(Chocos)))
  {
    var nugets := fs[c.nugetsFolderFullPath := Cleanup(fs[c.nugetsFolderFullPath], Nugets)];
    assert CleanupAll(c, fs) == nugets[c.chocosFolderFullPath := Cleanup(nugets[c.chocosFolderFullPath], Chocos)];
    assert n in nugets[d];
  }

  /** Staging, a build that adds only the files `written`, and the cleanup together leave no new
      file but those: every copy staging made is deleted again. */
  lemma RunAddsOnly(c: Creator, fs: FileSystem, built: FileSystem, written: set<FilePath>)
    requires FoldersExist(c, fs) && FoldersExist(c, built)
    requires AddsOnly(StageAll(c, fs), built, written)
    ensures AddsOnly(fs, CleanupAll(c, built), written)
  {
    forall d, n | d in CleanupAll(c, built) && n in CleanupAll(c, built)[d]
      ensures (d in fs && n in fs[d]) || FilePath(d, n) in written
    {
      CleanupAllRemoves(c, built, d, n);
      if d in fs && n in StageAll(c, fs)[d] {
        StageAllAdds(c, fs, d, n);
      }
    }
  }

  /** The part of the archive written before the writer threw is a `.nupkg`, so the cleanup keeps it. */
  lemma ThrewSurvivesCleanup(c: Creator, env: Environment, m: Manifest, input: FileSystem, built: FileSystem, file: FilePath)
    requires FoldersExist(c, built) && WriterThrew(env, m, input, built, file)
    requires EndsWith(file.name, ArchiveExtension)
    ensures WriterThrew(env, m, input, CleanupAll(c, built), file)
  {
    OutputSurvivesCleanup(c, built, file);
  }

  /** The metadata script is not a staged copy, so the cleanup keeps it. */
  lemma ScriptSurvivesCleanup(c: Creator, built: FileSystem, tempPath: string)
    requires FoldersExist(c, built) && tempPath in built && ScriptName in built[tempPath]
    ensures tempPath in CleanupAll(c, built) && ScriptName in CleanupAll(c, built)[tempPath]
    ensures CleanupAll(c, built)[tempPath][ScriptName] == built[tempPath][ScriptName]
  {
    EndsWithLast(ScriptName, Suffix(Nugets));
    EndsWithLast(ScriptName, Suffix(Chocos));
    CleanupAllKeeps(c, built, tempPath, ScriptName);
  }

  /** Each staged folder of `after` is as cleaning up that folder of `before` alone would leave it,
      and, when `before` held no leftover copies, exactly as it was in `before`. */
  predicate StagedFoldersCleaned(c: Creator, before: FileSystem, after: FileSystem)
    requires FoldersExist(c, before) && FoldersExist(c, after)
  {
    && (c.nugetsFolderFullPath != c.chocosFolderFullPath ==>
          && after[c.nugetsFolderFullPath] == Cleanup(before[c.nugetsFolderFullPath], Nugets)
          && after[c.chocosFolderFullPath] == Cleanup(before[c.chocosFolderFullPath], Chocos))
    && (c.nugetsFolderFullPath == c.chocosFolderFullPath ==>
          after[c.nugetsFolderFullPath] == Cleanup(Cleanup(before[c.nugetsFolderFullPath], Nugets), Chocos))
    && (NoLeftoverCopies(c, before) ==>
          && after[c.nugetsFolderFullPath] == before[c.nugetsFolderFullPath]
          && after[c.chocosFolderFullPath] == before[c.chocosFolderFullPath])
  }

  /** What the cleanup leaves, given a build that changed only the temporary and destination
      folders, kept every file but the script and the output file, and added no other: no copies
      left, the staged folders as cleaning them alone would leave them, every other folder as it
      was, every file but those two and the copies kept, and no new file but those two. */
  lemma CleanupFrames(c: Creator, env: Environment, fs: FileSystem, built: FileSystem, cleaned: FileSystem, output: FilePath)
    requires FoldersExist(c, fs) && fs.Keys <= built.Keys
    requires forall d :: d in fs && d != env.tempPath && d != c.deployFolderFullPath ==> built[d] == StageAll(c, fs)[d]
    requires KeepsOtherFiles(StageAll(c, fs), built, env.tempPath, output)
    requires AddsOnly(StageAll(c, fs), built, {FilePath(env.tempPath, ScriptName), output})
    requires FoldersExist(c, built) && cleaned == CleanupAll(c, built)
    ensures FoldersExist(c, cleaned) && NoLeftoverCopies(c, cleaned)
    ensures SeparateFolders(c, env) ==> StagedFoldersCleaned(c, fs, cleaned)
    ensures forall d :: d in fs && Untouched(c, env, d) ==> d in cleaned && cleaned[d] == fs[d]
    ensures KeepsAllButCopies(c, fs, cleaned, env.tempPath, output)
    ensures AddsOnly(fs, cleaned, {FilePath(env.tempPath, ScriptName), output})
  {
    CleanupLeavesNoCopies(c, built);
    RunTouchesOnlyItsFolders(c, env, fs, built);
    RunKeepsFiles(c, env, fs, built, output);
    if SeparateFolders(c, env) {
      RunCleansStagedFolders(c, fs, built);
      if NoLeftoverCopies(c, fs) {
        StageCleanupRoundTrip(c, fs, built);
      }
    }
    RunAddsOnly(c, fs, built, {FilePath(env.tempPath, ScriptName), output});
  }

  /** The cleanup keeps what the build left for the caller: the metadata script, the archive on
      success, and the part written before the writer threw. */
  lemma CleanupKeepsOutcome(c: Creator, env: Environment, staged: FileSystem, built: FileSystem, cleaned: FileSystem,
                            r: Result<Package, Exception>)
    requires FoldersExist(c, staged) && FoldersExist(c, built) && cleaned == CleanupAll(c, built)
    requires !env.validSemVer(c.version) || '.' !in c.version || env.tempPath !in staged ==> built == staged
    requires env.tempPath in staged && env.validSemVer(c.version) && '.' in c.version ==>
      && env.tempPath in built && ScriptName in built[env.tempPath]
      && built[env.tempPath][ScriptName] == Chars(GenerateMetadataScript(c.branch, c.version, c.productName).value)
    requires r == Failure(ArchiveWriteFailed) ==>
      var file := OutputFile(c.deployFolderFullPath, env.fullName(DeployId(c.productName), c.version));
      && c.deployFolderFullPath in built && file.name in built[c.deployFolderFullPath]
      && exists m :: && IsDeployManifest(m, DeployId(c.productName), DeployDescription(c.productName), c, env, staged)
                     && WriterThrew(env, m, WriterInput(c, env, staged, file), built, file)
    requires r.Success? ==>
      && r.value.file == OutputFile(c.deployFolderFullPath, env.fullName(DeployId(c.productName), c.version))
      && HoldsArchive(env, r.value.manifest, WriterInput(c, env, staged, r.value.file), built, r.value.file)
    ensures !env.validSemVer(c.version) || '.' !in c.version || env.tempPath !in staged ==> cleaned == CleanupAll(c, staged)
    ensures env.tempPath in staged && env.validSemVer(c.version) && '.' in c.version ==>
      && env.tempPath in cleaned && ScriptName in cleaned[env.tempPath]
      && cleaned[env.tempPath][ScriptName] == Chars(GenerateMetadataScript(c.branch, c.version, c.productName).value)
    ensures r == Failure(ArchiveWriteFailed) ==>
      var file := OutputFile(c.deployFolderFullPath, env.fullName(DeployId(c.productName), c.version));
      && c.deployFolderFullPath in cleaned && file.name in cleaned[c.deployFolderFullPath]
      && exists m :: && IsDeployManifest(m, DeployId(c.productName), DeployDescription(c.productName), c, env, staged)
                     && WriterThrew(env, m, WriterInput(c, env, staged, file), cleaned, file)
    ensures r.Success? ==> HoldsArchive(env, r.value.manifest, WriterInput(c, env, staged, r.value.file), cleaned, r.value.file)
  {
    var output := OutputFile(c.deployFolderFullPath, env.fullName(DeployId(c.productName), c.version));
    if output.dir in built && output.name in built[output.dir] {
      OutputSurvivesCleanup(c, built, output);
    }
    if env.tempPath in built && ScriptName in built[env.tempPath] {
      ScriptSurvivesCleanup(c, built, env.tempPath);
    }
    if r == Failure(ArchiveWriteFailed) {
      ghost var m :| && IsDeployManifest(m, DeployId(c.productName), DeployDescription(c.productName), c, env, staged)
                     && WriterThrew(env, m, WriterInput(c, env, staged, output), built, output);
      ThrewSurvivesCleanup(c, env, m, WriterInput(c, env, staged, output), built, output);
    }
  }

  /** CreateDeploymentPackage: stage both folders, then build inside a try whose finally deletes
      the copies of both roles. Staging is outside the try: if it throws, nothing is cleaned up. */
  method CreateDeploymentPackage(c: Creator, env: Environment, fs: FileSystem)
    returns (fs': FileSystem, r: Result<Package, Exception>)
    ensures c.nugetsFolderFullPath !in fs ==> fs' == fs && r == Failure(DirectoryNotFound(c.nugetsFolderFullPath))
    ensures c.nugetsFolderFullPath in fs && c.chocosFolderFullPath !in fs ==>
      && fs' == fs[c.nugetsFolderFullPath := Stage(fs[c.nugetsFolderFullPath], Nugets)]
      && r == Failure(DirectoryNotFound(c.chocosFolderFullPath))
    ensures FoldersExist(c, fs) ==> FoldersExist(c, fs') && NoLeftoverCopies(c, fs')
    ensures FoldersExist(c, fs) ==> fs.Keys <= fs'.Keys <= fs.Keys + {c.deployFolderFullPath}
    ensures FoldersExist(c, fs) && SeparateFolders(c, env) && c.nugetsFolderFullPath != c.chocosFolderFullPath ==>
      && fs'[c.nugetsFolderFullPath] == Cleanup(fs[c.nugetsFolderFullPath], Nugets)
      && fs'[c.chocosFolderFullPath] == Cleanup(fs[c.chocosFolderFullPath], Chocos)
    ensures FoldersExist(c, fs) && SeparateFolders(c, env) && c.nugetsFolderFullPath == c.chocosFolderFullPath ==>
      fs'[c.nugetsFolderFullPath] == Cleanup(Cleanup(fs[c.nugetsFolderFullPath], Nugets), Chocos)
    ensures FoldersExist(c, fs) && NoLeftoverCopies(c, fs) && SeparateFolders(c, env) ==>
      && fs'[c.nugetsFolderFullPath] == fs[c.nugetsFolderFullPath]
      && fs'[c.chocosFolderFullPath] == fs[c.chocosFolderFullPath]
    ensures FoldersExist(c, fs) ==>
      forall d :: d in fs && Untouched(c, env, d) ==> d in fs' && fs'[d] == fs[d]
    ensures FoldersExist(c, fs) ==> KeepsAllButCopies(c, fs, fs', env.tempPath, OutputFile(c.deployFolderFullPath, env.fullName(DeployId(c.productName), c.version)))
    ensures FoldersExist(c, fs) ==> AddsOnly(fs, fs', {FilePath(env.tempPath, ScriptName), OutputFile(c.deployFolderFullPath, env.fullName(DeployId(c.productName), c.version))})
    ensures FoldersExist(c, fs) && !env.validSemVer(c.version) ==> r == Failure(InvalidVersion(c.version))
    ensures FoldersExist(c, fs) && env.validSemVer(c.version) && '.' !in c.version ==> r == Failure(IndexOutOfRange)
    ensures FoldersExist(c, fs) && env.validSemVer(c.version) && '.' in c.version && env.tempPath !in fs
      ==> r == Failure(DirectoryNotFound(env.tempPath))
    ensures FoldersExist(c, fs) && (!env.validSemVer(c.version) || '.' !in c.version || env.tempPath !in fs)
      ==> fs' == CleanupAll(c, StageAll(c, fs))
    ensures FoldersExist(c, fs) && env.validSemVer(c.version) && '.' in c.version && env.tempPath in fs
      ==> && (r.Success? || r == Failure(ArchiveWriteFailed))
          && (WriterAlwaysSaves(env) ==> r.Success?)
          && (WriterAlwaysThrows(env) ==> r == Failure(ArchiveWriteFailed))
          && env.tempPath in fs' && ScriptName in fs'[env.tempPath]
          && fs'[env.tempPath][ScriptName] == Chars(GenerateMetadataScript(c.branch, c.version, c.productName).value)
    ensures r == Failure(ArchiveWriteFailed) ==>
      var file := OutputFile(c.deployFolderFullPath, env.fullName(DeployId(c.productName), c.version));
      && c.deployFolderFullPath in fs' && file.name in fs'[c.deployFolderFullPath]
      && FoldersExist(c, fs)
      && exists m :: && IsDeployManifest(m, DeployId(c.productName), DeployDescription(c.productName), c, env, StageAll(c, fs))
                     && WriterThrew(env, m, WriterInput(c, env, StageAll(c, fs), file), fs', file)
    ensures r.Success? ==>
      && FoldersExist(c, fs)
      && IsDeployManifest(r.value.manifest, DeployId(c.productName), DeployDescription(c.productName), c, env, StageAll(c, fs))
      && r.value.file == OutputFile(c.deployFolderFullPath, env.fullName(DeployId(c.productName), c.version))
      && HoldsArchive(env, r.value.manifest, WriterInput(c, env, StageAll(c, fs), r.value.file), fs', r.value.file)
  {
    var stagedNugets := StageRole(fs, c.nugetsFolderFullPath, Nugets);
    if stagedNugets.Failure? {
      return fs, Failure(stagedNugets.error);
    }
    var stagedChocos := StageRole(stagedNugets.value, c.chocosFolderFullPath, Chocos);
    if stagedChocos.Failure? {
      return stagedNugets.value, Failure(stagedChocos.error);
    }
    assert stagedChocos.value == StageAll(c, fs);
    ghost var attempted;
    fs', r, attempted := BuildThenCleanup(c, env, fs, stagedChocos.value);
  }

  /** The try/finally of CreateDeploymentPackage, once both folders are staged: build the deploy
      package, then delete both roles' copies whatever the build did. */
  method BuildThenCleanup(c: Creator, env: Environment, fs: FileSystem, staged: FileSystem)
    returns (fs': FileSystem, r: Result<Package, Exception>, ghost attempted: Manifest)
    requires FoldersExist(c, fs) && staged == StageAll(c, fs) && FoldersExist(c, staged)
    ensures FoldersExist(c, fs') && NoLeftoverCopies(c, fs')
    ensures fs.Keys <= fs'.Keys <= fs.Keys + {c.deployFolderFullPath}
    ensures SeparateFolders(c, env) ==> StagedFoldersCleaned(c, fs, fs')
    ensures forall d :: d in fs && Untouched(c, env, d) ==> d in fs' && fs'[d] == fs[d]
    ensures KeepsAllButCopies(c, fs, fs', env.tempPath, OutputFile(c.deployFolderFullPath, env.fullName(DeployId(c.productName), c.version)))
    ensures AddsOnly(fs, fs', {FilePath(env.tempPath, ScriptName), OutputFile(c.deployFolderFullPath, env.fullName(DeployId(c.productName), c.version))})
    ensures !env.validSemVer(c.version) ==> r == Failure(InvalidVersion(c.version))
    ensures env.validSemVer(c.version) && '.' !in c.version ==> r == Failure(IndexOutOfRange)
    ensures env.validSemVer(c.version) && '.' in c.version && env.tempPath !in staged
      ==> r == Failure(DirectoryNotFound(env.tempPath))
    ensures (!env.validSemVer(c.version) || '.' !in c.version || env.tempPath !in staged)
      ==> fs' == CleanupAll(c, staged)
    ensures env.validSemVer(c.version) && '.' in c.version && env.tempPath in staged
      ==> && (r.Success? || r == Failure(ArchiveWriteFailed))
          && (WriterAlwaysSaves(env) ==> r.Success?)
          && (WriterAlwaysThrows(env) ==> r == Failure(ArchiveWriteFailed))
          && env.tempPath in fs' && ScriptName in fs'[env.tempPath]
          && fs'[env.tempPath][ScriptName] == Chars(GenerateMetadataScript(c.branch, c.version, c.productName).value)
    ensures r == Failure(ArchiveWriteFailed) ==>
      var file := OutputFile(c.deployFolderFullPath, env.fullName(DeployId(c.productName), c.version));
      && c.deployFolderFullPath in fs' && file.name in fs'[c.deployFolderFullPath]
      && IsDeployManifest(attempted, DeployId(c.productName), DeployDescription(c.productName), c, env, staged)
      && WriterThrew(env, attempted, WriterInput(c, env, staged, file), fs', file)
    ensures r.Success? ==>
      && IsDeployManifest(r.value.manifest, DeployId(c.productName), DeployDescription(c.productName), c, env, staged)
      && r.value.file == OutputFile(c.deployFolderFullPath, env.fullName(DeployId(c.productName), c.version))
      && HoldsArchive(env, r.value.manifest, WriterInput(c, env, staged, r.value.file), fs', r.value.file)
  {
    // try
    var built, outcome := CreateDeployPackage(c, env, staged, DeployId(c.productName), DeployDescription(c.productName));
    // finally
    fs' := CleanupStaged(c, built);
    var output := OutputFile(c.deployFolderFullPath, env.fullName(DeployId(c.productName), c.version));
    CleanupFrames(c, env, fs, built, fs', output);
    CleanupKeepsOutcome(c, env, staged, built, fs', outcome);
    attempted := if outcome.Success? then outcome.value.manifest else NewManifest(DeployId(c.productName), DeployDescription(c.productName), c.version);
    if outcome == Failure(ArchiveWriteFailed) {
      attempted :| && IsDeployManifest(attempted, DeployId(c.productName), DeployDescription(c.productName), c, env, staged)
                   && WriterThrew(env, attempted, WriterInput(c, env, staged, output), fs', output);
    }
    r := outcome;
  }
}

=== FILE: exceptions.dfy ===
/** The exceptions the deployment-package workflow can raise, one constructor per .NET exception kind. */
module Exceptions {

  datatype Exception =
    /** Directory.GetFiles or File.WriteAllText on a folder that does not exist. */
    | DirectoryNotFound(path: string)
    /** SemanticVersion.Parse rejected the version string. */
    | InvalidVersion(version: string)
    /** The version split on '.' has no part at index 1. */
    | IndexOutOfRange
    /** PackageBuilder.Save threw while writing the archive. */
    | ArchiveWriteFailed
}

=== FILE: files.dfy ===
/** The file system as the package creator sees it: folders of named files, globbing by extension,
    and the System.IO calls the workflow makes. */
module Files {
  import opened Results
  import opened Paths
  import opened Exceptions

  /** File contents: bytes copied or archived, or text written with File.WriteAllText. */
  datatype Data = Binary(bytes: seq<bv8>) | Chars(text: string)

  /** A folder maps each file name it holds to that file's contents. */
  type Folder = map<string, Data>

  /** Each existing folder path maps to its contents; a path that is not a key does not exist. */
  type FileSystem = map<string, Folder>

  /** The state of the file system after a step, and the step's value or exception. */
  datatype Effect<+T> = Effect(fs: FileSystem, result: Result<T, Exception>)

  /** The names in `f` that the glob `*<extension>` matches. */
  function Matching(f: Folder, extension: string): (names: set<string>)
    ensures forall n :: n in names <==> n in f && EndsWith(n, extension)
  {
    set n | n in f && EndsWith(n, extension)
  }

  /** Directory.GetFiles(dir, "*" + extension): the matching names in an order the model leaves
      open, each exactly once; a missing folder throws. */
  method GetFiles(fs: FileSystem, dir: string, extension: string) returns (r: Result<seq<string>, Exception>)
    ensures dir !in fs ==> r == Failure(DirectoryNotFound(dir))
    ensures dir in fs ==> r.Success? && multiset(r.value) == multiset(Matching(fs[dir], extension))
  {
    if dir !in fs {
      return Failure(DirectoryNotFound(dir));
    }
    var all := Matching(fs[dir], extension);
    var rest := all;
    var listing: seq<string> := [];
    while rest != {}
      invariant rest <= all
      invariant multiset(listing) + multiset(rest) == multiset(all)
      decreases rest
    {
      var n :| n in rest;
      listing := listing + [n];
      rest := rest - {n};
    }
    return Success(listing);
  }

  /** File.WriteAllText(path, text): creates or replaces the file; a missing folder throws.
      Every other file and folder is left as it was. */
  function WriteAllText(fs: FileSystem, path: FilePath, text: string): (e: Effect<()>)
    ensures e.result.Success? <==> path.dir in fs
    ensures e.result.Failure? ==> e.result.error == DirectoryNotFound(path.dir) && e.fs == fs
    ensures e.result.Success? ==> e.fs.Keys == fs.Keys && e.fs[path.dir].Keys == fs[path.dir].Keys + {path.name}
    ensures e.result.Success? ==> e.fs[path.dir][path.name] == Chars(text)
    ensures path.dir in fs ==> forall n :: n in fs[path.dir] && n != path.name ==> e.fs[path.dir][n] == fs[path.dir][n]
    ensures forall d :: d in fs && d != path.dir ==> e.fs[d] == fs[d]
  {
    if path.dir !in fs then Effect(fs, Failure(DirectoryNotFound(path.dir)))
    else Effect(fs[path.dir := fs[path.dir][path.name := Chars(text)]], Success(()))
  }

  /** Writing `bytes` to the file at `path` through a stream, creating its folder if absent: the
      file holds exactly those bytes afterwards, and every other file and folder is kept. */
  function WriteBytes(fs: FileSystem, path: FilePath, bytes: seq<bv8>): (after: FileSystem)
    ensures after.Keys == fs.Keys + {path.dir}
    ensures after[path.dir].Keys == (if path.dir in fs then fs[path.dir].Keys else {}) + {path.name}
    ensures after[path.dir][path.name] == Binary(bytes)
    ensures path.dir in fs ==> forall n :: n in fs[path.dir] && n != path.name ==> after[path.dir][n] == fs[path.dir][n]
    ensures forall d :: d in fs && d != path.dir ==> after[d] == fs[d]
  {
    var folder := if path.dir in fs then fs[path.dir] else map[];
    fs[path.dir := folder[path.name := Binary(bytes)]]
  }

  /** Directory.CreateDirectory(path.dir) when it is absent, then `new FileStream(path, FileMode.Create)`:
      the folder exists afterwards, the file is empty, and every other file and folder is kept. */
  function CreateFile(fs: FileSystem, path: FilePath): (created: FileSystem)
    ensures created.Keys == fs.Keys + {path.dir}
    ensures created[path.dir].Keys == (if path.dir in fs then fs[path.dir].Keys else {}) + {path.name}
    ensures created[path.dir][path.name] == Binary([])
    ensures path.dir in fs ==> forall n :: n in fs[path.dir] && n != path.name ==> created[path.dir][n] == fs[path.dir][n]
    ensures forall d :: d in fs && d != path.dir ==> created[d] == fs[d]
  {
    WriteBytes(fs, path, [])
  }

  /** The names a listing holds. */
  function Listed(listing: seq<string>): (names: set<string>)
    ensures forall n :: n in names <==> n in listing
  {
    set n | n in listing
  }

  /** A listing holding each name of a set exactly once holds exactly that set. */
  lemma ListedMultiset(listing: seq<string>, names: set<string>)
    requires multiset(listing) == multiset(names)
    ensures Listed(listing) == names
  {
    assert forall n :: n in listing <==> n in multiset(listing);
  }

  /** A prefix of a listing that grows by one name holds one more name. */
  lemma ListedSnoc(listing: seq<string>, i: nat)
    requires i < |listing|
    ensures Listed(listing[..i + 1]) == Listed(listing[..i]) + {listing[i]}
  {
    assert listing[..i + 1] == listing[..i] + [listing[i]];
  }
}

=== FILE: manifest.dfy ===
/** The package manifest the NuGet PackageBuilder accumulates: a header and an ordered list of
    (source file, target in the archive) entries. */
module Manifests {
  import opened Paths

  /** One content entry: the file on disk and where it goes inside the archive. */
  datatype ManifestFile = ManifestFile(source: FilePath, target: string)

  datatype Manifest = Manifest(
    id: string,
    description: string,
    version: string,
    authors: seq<string>,
    files: seq<ManifestFile>)

  const Author: string := "Particular Software"

  /** The archive folder every staged package is placed in. */
  const ContentFolder: string := "content"

  /** A builder with its header set and the one author added, holding no entries yet. */
  function NewManifest(id: string, description: string, version: string): (m: Manifest)
    ensures m.files == [] && m.authors == [Author]
  {
    Manifest(id, description, version, [Author], [])
  }

  /** PopulateFiles with one entry per listed name of `dir`, targeted at the content folder. */
  function ContentEntries(dir: string, listing: seq<string>): (files: seq<ManifestFile>)
    ensures |files| == |listing|
  {
    seq(|listing|, i requires 0 <= i < |listing| => ManifestFile(FilePath(dir, listing[i]), ContentFolder))
  }

  /** The names of the source files of some entries, in entry order. */
  function SourceNames(files: seq<ManifestFile>): (names: seq<string>)
    ensures |names| == |files|
    ensures forall i :: 0 <= i < |files| ==> names[i] == files[i].source.name
  {
    seq(|files|, i requires 0 <= i < |files| => files[i].source.name)
  }

  /** The entries are one per file of `names` in folder `dir`, each exactly once, in any order,
      all targeted at the content folder. */
  predicate IsContentGroup(files: seq<ManifestFile>, dir: string, names: set<string>) {
    && (forall i :: 0 <= i < |files| ==> files[i].source.dir == dir && files[i].target == ContentFolder)
    && multiset(SourceNames(files)) == multiset(names)
  }

  /** Entries made from a listing of exactly the names form that content group. */
  lemma ContentEntriesGroup(dir: string, listing: seq<string>, names: set<string>)
    requires multiset(listing) == multiset(names)
    ensures IsContentGroup(ContentEntries(dir, listing), dir, names)
  {
    assert SourceNames(ContentEntries(dir, listing)) == listing;
  }

  /** A name listed at two positions occurs at least twice. */
  lemma RepeatedName(names: seq<string>, i: nat, j: nat)
    requires i < j < |names| && names[i] == names[j]
    ensures multiset(names)[names[i]] >= 2
  {
    var n := names[i];
    assert names == names[..i] + [n] + names[i + 1..j] + [n] + names[j + 1..];
  }

  /** A content group has one entry per name: as many entries as names, every name present, and
      no two entries from the same file. */
  lemma ContentGroupExactlyOnce(files: seq<ManifestFile>, dir: string, names: set<string>)
    requires IsContentGroup(files, dir, names)
    ensures |files| == |names|
    ensures forall n :: n in names ==> n in SourceNames(files)
    ensures forall i, j :: 0 <= i < j < |files| ==> files[i] != files[j]
  {
    var sources := SourceNames(files);
    assert |multiset(sources)| == |multiset(names)|;
    forall n | n in names
      ensures n in sources
    {
      assert n in multiset(sources);
    }
    forall i, j | 0 <= i < j < |files|
      ensures sources[i] != sources[j]
    {
      if sources[i] == sources[j] {
        RepeatedName(sources, i, j);
        assert false;
      }
    }
  }
}

=== FILE: metadata.dfy ===
/** The generated Metadata.ps1 script: five PowerShell variable assignments describing the
    release, and a reader for such scripts. */
module Metadata {
  import opened Results
  import opened Exceptions
  import opened Text

  /** What reading a line or a script gives: the assignments it holds, or nothing when it does not
      have the template's shape. */
  datatype Reading<+T> = Unreadable | Read(value: T)

  /** A PowerShell assignment `$name = "value"`. */
  datatype Assignment = Assignment(name: string, value: string)

  /** The line terminator of the script template. */
  const LineEnd: char := '\n'
  const Quote: char := '"'

  /** The version split on '.': part 0 is the major number, part 1 the minor one. */
  function VersionParts(version: string): seq<string> {
    Split(version, '.')
  }

  /** The text of one assignment line, without its terminator. */
  function AssignmentLine(a: Assignment): string {
    "$" + a.name + " = " + [Quote] + a.value + [Quote]
  }

  /** The lines of a script, each terminated. */
  function Render(assignments: seq<Assignment>): string {
    if |assignments| == 0 then ""
    else AssignmentLine(assignments[0]) + [LineEnd] + Render(assignments[1..])
  }

  /** The assignments of the script for a release, in template order. */
  function ScriptAssignments(branch: string, version: string, productName: string): seq<Assignment>
    requires '.' in version
  {
    var versionParts := VersionParts(version);
    var major := versionParts[0];
    var minor := versionParts[1];
    [ Assignment("Branch", branch), Assignment("Version", version), Assignment("Product", productName),
      Assignment("Major", major), Assignment("Minor", minor) ]
  }

  /** The script for a release: Branch, Version, Product, Major and Minor, one per line. Indexing
      part 1 of a version without a '.' throws. */
  function GenerateMetadataScript(branch: string, version: string, productName: string): (r: Result<string, Exception>)
    ensures r.Failure? <==> '.' !in version
    ensures r.Failure? ==> r.error == IndexOutOfRange
  {
    if |VersionParts(version)| < 2 then Failure(IndexOutOfRange)
    else Success(Render(ScriptAssignments(branch, version, productName)))
  }

  /** Reads one line `$name = "value"`; anything else is not an assignment. */
  function ParseAssignment(line: string): Reading<Assignment> {
    var pieces := Split(line, Quote);
    var head := pieces[0];
    if |pieces| == 3 && pieces[2] == "" && |head| >= 4 && head[0] == '$' && head[|head| - 3..] == " = "
    then Read(Assignment(head[1..|head| - 3], pieces[1]))
    else Unreadable
  }

  /** Reads every line as an assignment, failing if one is not. */
  function ParseAssignments(lines: seq<string>): (r: Reading<seq<Assignment>>)
    ensures r.Read? ==> |r.value| == |lines|
  {
    if |lines| == 0 then Read([])
    else
      match ParseAssignment(lines[0])
      case Unreadable => Unreadable
      case Read(a) =>
        match ParseAssignments(lines[1..])
        case Unreadable => Unreadable
        case Read(rest) => Read([a] + rest)
  }

  /** Reads a script of newline-terminated assignment lines. */
  function ParseScript(text: string): Reading<seq<Assignment>> {
    var lines := Split(text, LineEnd);
    if lines[|lines| - 1] != "" then Unreadable else ParseAssignments(lines[..|lines| - 1])
  }

  /** A value that can sit between the quotes of one line: no quote, no line break. */
  predicate Plain(s: string) {
    Quote !in s && LineEnd !in s
  }

  predicate PlainAssignment(a: Assignment) {
    Plain(a.name) && Plain(a.value)
  }

  /** A line built from a plain name and value reads back as that assignment. */
  lemma ParseAssignmentLine(a: Assignment)
    requires PlainAssignment(a)
    ensures ParseAssignment(AssignmentLine(a)) == Read(a)
    ensures LineEnd !in AssignmentLine(a)
  {
    var head := "$" + a.name + " = ";
    var pieces := [head, a.value, ""];
    assert Join(pieces[2..], Quote) == "";
    assert Join(pieces[1..], Quote) == a.value + [Quote];
    assert AssignmentLine(a) == Join(pieces, Quote);
    SplitJoin(pieces, Quote);
    assert head[1..|head| - 3] == a.name;
  }

  /** The unterminated lines of a script. */
  function Lines(assignments: seq<Assignment>): (lines: seq<string>)
    ensures |lines| == |assignments|
  {
    if |assignments| == 0 then [] else [AssignmentLine(assignments[0])] + Lines(assignments[1..])
  }

  /** A rendered script is its lines joined by line breaks, with a final line break. */
  lemma {:induction false} RenderIsJoin(assignments: seq<Assignment>)
    ensures Render(assignments) == Join(Lines(assignments) + [""], LineEnd)
  {
    if |assignments| > 0 {
      RenderIsJoin(assignments[1..]);
      assert Lines(assignments) + [""] == [AssignmentLine(assignments[0])] + (Lines(assignments[1..]) + [""]);
    }
  }

  /** Plain assignments read back from their lines, in order. */
  lemma {:induction false} ParseLines(assignments: seq<Assignment>)
    requires forall i :: 0 <= i < |assignments| ==> PlainAssignment(assignments[i])
    ensures ParseAssignments(Lines(assignments)) == Read(assignments)
    ensures forall i :: 0 <= i < |assignments| ==> LineEnd !in Lines(assignments)[i]
  {
    if |assignments| > 0 {
      ParseLines(assignments[1..]);
      ParseAssignmentLine(assignments[0]);
      assert Lines(assignments)[1..] == Lines(assignments[1..]);
      assert [assignments[0]] + assignments[1..] == assignments;
    }
  }

  /** The script reads back as exactly the five assignments Branch, Version, Product, Major and
      Minor, in that order, with Major and Minor the first two parts of the version. */
  lemma ScriptRoundTrip(branch: string, version: string, productName: string)
    requires '.' in version
    requires Plain(branch) && Plain(version) && Plain(productName)
    ensures GenerateMetadataScript(branch, version, productName).Success?
    ensures ParseScript(GenerateMetadataScript(branch, version, productName).value)
         == Read(ScriptAssignments(branch, version, productName))
  {
    var assignments := ScriptAssignments(branch, version, productName);
    SplitPartsWithout(version, '.', Quote);
    SplitPartsWithout(version, '.', LineEnd);
    ParseLines(assignments);
    RenderIsJoin(assignments);
    var lines := Lines(assignments) + [""];
    assert forall i :: 0 <= i < |lines| ==> LineEnd !in lines[i];
    SplitJoin(lines, LineEnd);
    assert lines[..|lines| - 1] == Lines(assignments);
  }

  /** The version 5.3.1 splits into 5, 3 and 1. */
  lemma ExampleVersionParts()
    ensures VersionParts("5.3.1") == ["5", "3", "1"]
  {
    SplitWhole("1", '.');
    SplitCons("3", '.', "1");
    assert "3" + ['.'] + "1" == "3.1";
    SplitCons("5", '.', "3.1");
    assert "5" + ['.'] + "3.1" == "5.3.1";
  }

  /** The release 5.3.1 of NServiceBus on master reads back with Major 5 and Minor 3. */
  lemma ExampleScript()
    ensures GenerateMetadataScript("master", "5.3.1", "NServiceBus").Success?
    ensures ParseScript(GenerateMetadataScript("master", "5.3.1", "NServiceBus").value)
         == Read([ Assignment("Branch", "master"), Assignment("Version", "5.3.1"),
                   Assignment("Product", "NServiceBus"), Assignment("Major", "5"), Assignment("Minor", "3") ])
  {
    ExampleVersionParts();
    ScriptRoundTrip("master", "5.3.1", "NServiceBus");
  }
}

=== FILE: paths.dfy ===
/** File names and the System.IO.Path.Combine rule (Windows separators). */
module Paths {

  /** True when `s` ends with `suffix`: aligned at the end, every character of `suffix` equals
      the character of `s` in the same place. The glob `*<suffix>` is this test on a file name. */
  predicate EndsWith(s: string, suffix: string) {
    |suffix| <= |s| && forall i :: 0 <= i < |suffix| ==> s[|s| - |suffix| + i] == suffix[i]
  }

  /** The same test as a slice: the last `|suffix|` characters of `s` are `suffix`. */
  lemma EndsWithSlice(s: string, suffix: string)
    ensures EndsWith(s, suffix) <==> |suffix| <= |s| && s[|s| - |suffix|..] == suffix
  {
    if |suffix| <= |s| && s[|s| - |suffix|..] == suffix {
      forall i | 0 <= i < |suffix|
        ensures s[|s| - |suffix| + i] == suffix[i]
      {
        assert s[|s| - |suffix|..][i] == suffix[i];
      }
    }
  }

  /** A name ending with a non-empty suffix ends with its last character. */
  lemma EndsWithLast(s: string, suffix: string)
    requires |suffix| > 0
    ensures EndsWith(s, suffix) ==> |s| > 0 && s[|s| - 1] == suffix[|suffix| - 1]
  {
  }

  /** Appending a suffix yields a name ending with it, whose prefix is the original name. */
  lemma AppendEndsWith(s: string, suffix: string)
    ensures EndsWith(s + suffix, suffix)
    ensures (s + suffix)[..|s|] == s
  {
    forall i | 0 <= i < |suffix|
      ensures (s + suffix)[|s| + i] == suffix[i]
    {
    }
  }

  const DirectorySeparator: char := '\\'
  const AltDirectorySeparator: char := '/'
  const VolumeSeparator: char := ':'

  predicate IsPathRooted(p: string) {
    || (|p| >= 1 && (p[0] == DirectorySeparator || p[0] == AltDirectorySeparator))
    || (|p| >= 2 && p[1] == VolumeSeparator)
  }

  /** Path.Combine(path1, path2): an empty part yields the other, a rooted second part wins,
      otherwise the parts are joined with one directory separator. */
  function Combine(path1: string, path2: string): string {
    if |path2| == 0 then path1
    else if |path1| == 0 then path2
    else if IsPathRooted(path2) then path2
    else if path1[|path1| - 1] in {DirectorySeparator, AltDirectorySeparator, VolumeSeparator} then path1 + path2
    else path1 + [DirectorySeparator] + path2
  }

  /** The combined path ends with the second part; unless that part is rooted it starts with the
      first part, and the two are either adjacent or separated by one directory separator. */
  lemma CombineShape(path1: string, path2: string)
    ensures EndsWith(Combine(path1, path2), path2)
    ensures |path2| > 0 && !IsPathRooted(path2)
      ==> EndsWith(Combine(path1, path2), [DirectorySeparator] + path2) || Combine(path1, path2) == path1 + path2
    ensures !IsPathRooted(path2)
      ==> |path1| <= |Combine(path1, path2)| && Combine(path1, path2)[..|path1|] == path1
  {
    var r := Combine(path1, path2);
    if |path2| == 0 || |path1| == 0 || IsPathRooted(path2) {
      AppendEndsWith([], r);
    } else if path1[|path1| - 1] in {DirectorySeparator, AltDirectorySeparator, VolumeSeparator} {
      AppendEndsWith(path1, path2);
    } else {
      assert r == (path1 + [DirectorySeparator]) + path2 == path1 + ([DirectorySeparator] + path2);
      AppendEndsWith(path1 + [DirectorySeparator], path2);
      AppendEndsWith(path1, [DirectorySeparator] + path2);
    }
  }

  /** Appending an extension to a combined path is the same as combining with the extended name,
      so a file named `name + ext` in folder `dir` has the path `Combine(dir, name) + ext`. */
  lemma CombineThenAppend(dir: string, name: string, ext: string)
    requires |name| > 0 && !IsPathRooted(name) && !IsPathRooted(name + ext)
    ensures Combine(dir, name) + ext == Combine(dir, name + ext)
  {
    var extended := name + ext;
    assert |extended| > 0;
    if |dir| == 0 {
    } else if dir[|dir| - 1] in {DirectorySeparator, AltDirectorySeparator, VolumeSeparator} {
      assert (dir + name) + ext == dir + extended;
    } else {
      assert (dir + [DirectorySeparator] + name) + ext == dir + [DirectorySeparator] + extended;
    }
  }

  /** A file: the folder holding it and its name within that folder. */
  datatype FilePath = FilePath(dir: string, name: string) {
    function FullName(): string {
      Combine(dir, name)
    }
  }
}

=== FILE: results.dfy ===
/** The outcome of an operation that can throw: the value it returned, or the exception that ended
    it. The `:-` operator passes an exception on to the caller, as an uncaught .NET exception does. */
module Results {

  datatype Result<+T, +E> = Success(value: T) | Failure(error: E) {

    /** An exception ends the caller too. */
    predicate IsFailure() {
      Failure?
    }

    /** The same exception, seen from a caller expecting another value type. */
    function PropagateFailure<U>(): Result<U, E>
      requires Failure?
    {
      Failure(error)
    }

    /** The value of an operation that returned normally. */
    function Extract(): T
      requires Success?
    {
      value
    }
  }
}

=== FILE: staging.dfy ===
/** Staging copies of the sub-packages under a role suffix, and the cleanup that deletes them. */
module Staging {
  import opened Results
  import opened Paths
  import opened Exceptions
  import opened Files

  /** The glob `*.nupkg` that selects the packages to stage. */
  const PackageExtension: string := ".nupkg"

  /** The two source folders: NuGet packages and Chocolatey packages. */
  datatype Role = Nugets | Chocos

  /** The suffix a staged copy carries, distinct per role. */
  function Suffix(role: Role): string {
    match role
    case Nugets => ".nzip"
    case Chocos => ".czip"
  }

  /** A name ending with the package extension never ends with a staging suffix, and vice versa. */
  lemma PackageIsNotStaged(n: string, role: Role)
    ensures !(EndsWith(n, PackageExtension) && EndsWith(n, Suffix(role)))
  {
    EndsWithLast(n, PackageExtension);
    EndsWithLast(n, Suffix(role));
  }

  /** The two roles' suffixes never match the same name. */
  lemma SuffixesDisjoint(n: string)
    ensures !(EndsWith(n, Suffix(Nugets)) && EndsWith(n, Suffix(Chocos)))
  {
    EndsWithSlice(n, Suffix(Nugets));
    EndsWithSlice(n, Suffix(Chocos));
  }

  /** The packages in `f` that staging copies. */
  function Packages(f: Folder): set<string> {
    Matching(f, PackageExtension)
  }

  /** No file in `f` carries the role's staging suffix. */
  predicate NoneStaged(f: Folder, role: Role) {
    Matching(f, Suffix(role)) == {}
  }

  /** The names of the role's copies of the files `sources`. */
  function CopyNames(sources: set<string>, role: Role): set<string> {
    set p | p in sources :: p + Suffix(role)
  }

  /** The name a copy was made from. */
  function Original(copy: string, role: Role): string
    requires EndsWith(copy, Suffix(role))
  {
    copy[..|copy| - |Suffix(role)|]
  }

  /** A name is a copy of one of `sources` exactly when it carries the role's suffix and the
      name it was made from is in `sources`. */
  lemma {:induction false} CopyNameIff(sources: set<string>, role: Role)
    ensures forall n :: n in CopyNames(sources, role) <==> EndsWith(n, Suffix(role)) && Original(n, role) in sources
    ensures forall p :: p in sources ==> EndsWith(p + Suffix(role), Suffix(role)) && Original(p + Suffix(role), role) == p
  {
    forall p | p in sources
      ensures EndsWith(p + Suffix(role), Suffix(role)) && Original(p + Suffix(role), role) == p
    {
      AppendEndsWith(p, Suffix(role));
    }
    forall n | n in CopyNames(sources, role)
      ensures EndsWith(n, Suffix(role)) && Original(n, role) in sources
    {
      var p :| p in sources && n == p + Suffix(role);
      AppendEndsWith(p, Suffix(role));
    }
    forall n | EndsWith(n, Suffix(role)) && Original(n, role) in sources
      ensures n in CopyNames(sources, role)
    {
      CopyOfOriginal(n, role);
    }
  }

  /** A name carrying the role's suffix is its original with the suffix appended. */
  lemma CopyOfOriginal(n: string, role: Role)
    requires EndsWith(n, Suffix(role))
    ensures n == Original(n, role) + Suffix(role)
  {
    var k := |n| - |Suffix(role)|;
    EndsWithSlice(n, Suffix(role));
    assert n == n[..k] + n[k..];
  }

  /** File.Copy(p, p + suffix, true) for every p in `sources`: each copy is created or overwritten
      with the bytes of its original. */
  function CopyEach(f: Folder, sources: set<string>, role: Role): (r: Folder)
    requires sources <= f.Keys
  {
    f + CopyMap(f, sources, role)
  }

  /** The copies alone: each copy name holding the bytes of its original. */
  function CopyMap(f: Folder, sources: set<string>, role: Role): map<string, Data>
    requires sources <= f.Keys
  {
    CopyNameIff(sources, role);
    map n | n in CopyNames(sources, role) :: f[Original(n, role)]
  }

  /** Copying every package of `f` under the role suffix. A copy never matches `*.nupkg`, so the
      order of the copies does not matter and all of them together are one right-biased map union. */
  function Stage(f: Folder, role: Role): (r: Folder)
    ensures forall p :: p in Packages(f) ==> p + Suffix(role) in r && r[p + Suffix(role)] == f[p]
    ensures forall n :: n in f && n !in CopyNames(Packages(f), role) ==> n in r && r[n] == f[n]
    ensures forall n :: n in r ==> n in f || (EndsWith(n, Suffix(role)) && Original(n, role) in Packages(f))
  {
    StageShape(f, role);
    CopyEach(f, Packages(f), role)
  }

  /** What Stage's contract states, proved one clause at a time about the map union. */
  lemma StageShape(f: Folder, role: Role)
    ensures var r := CopyEach(f, Packages(f), role);
      forall p :: p in Packages(f) ==> p + Suffix(role) in r && r[p + Suffix(role)] == f[p]
    ensures var r := CopyEach(f, Packages(f), role);
      forall n :: n in f && n !in CopyNames(Packages(f), role) ==> n in r && r[n] == f[n]
    ensures var r := CopyEach(f, Packages(f), role);
      forall n :: n in r ==> n in f || (EndsWith(n, Suffix(role)) && Original(n, role) in Packages(f))
  {
    var r := CopyEach(f, Packages(f), role);
    var copies := CopyMap(f, Packages(f), role);
    CopyNameIff(Packages(f), role);
    forall p | p in Packages(f)
      ensures p + Suffix(role) in r && r[p + Suffix(role)] == f[p]
    {
      assert p + Suffix(role) in CopyNames(Packages(f), role);
      assert copies[p + Suffix(role)] == f[Original(p + Suffix(role), role)];
    }
  }

  /** File.Delete(n) for every n matching `*<suffix>`: exactly those names disappear, every other
      file keeps its contents. */
  function Cleanup(f: Folder, role: Role): (r: Folder)
    ensures forall n :: n in r <==> n in f && !EndsWith(n, Suffix(role))
    ensures forall n :: n in r ==> r[n] == f[n]
    ensures NoneStaged(r, role)
  {
    f - Matching(f, Suffix(role))
  }

  /** Staging then cleaning up removes exactly what cleaning up alone would: the fresh copies and
      any copies left over from before. */
  lemma CleanupAfterStage(f: Folder, role: Role)
    ensures Cleanup(Stage(f, role), role) == Cleanup(f, role)
  {
    var a := Cleanup(Stage(f, role), role);
    var b := Cleanup(f, role);
    CopyNameIff(Packages(f), role);
    assert a.Keys == b.Keys;
  }

  /** The staging round trip: a folder with no leftover copies ends exactly as it started. */
  lemma StageThenCleanup(f: Folder, role: Role)
    requires NoneStaged(f, role)
    ensures Cleanup(Stage(f, role), role) == f
  {
    CleanupAfterStage(f, role);
    assert Cleanup(f, role).Keys == f.Keys;
  }

  /** Cleaning up twice is cleaning up once. */
  lemma CleanupIdempotent(f: Folder, role: Role)
    ensures Cleanup(Cleanup(f, role), role) == Cleanup(f, role)
  {
  }

  /** Staging preserves the set of packages and their contents. */
  lemma StagePreservesPackages(f: Folder, role: Role)
    ensures Packages(Stage(f, role)) == Packages(f)
    ensures forall p :: p in Packages(f) ==> Stage(f, role)[p] == f[p]
  {
    var r := Stage(f, role);
    forall n | n in Packages(r)
      ensures n in Packages(f)
    {
      PackageIsNotStaged(n, role);
    }
    forall p | p in Packages(f)
      ensures p in Packages(r) && r[p] == f[p]
    {
      PackageIsNotStaged(p, role);
      CopyNameIff(Packages(f), role);
    }
  }

  /** The copies staging would make again are the copies it already made. */
  lemma RestageSameCopies(f: Folder, role: Role)
    ensures var g := Stage(f, role); CopyMap(g, Packages(g), role) == CopyMap(f, Packages(f), role)
  {
    StagePreservesPackages(f, role);
  }

  /** Overwriting with the same entries twice is overwriting once. */
  lemma UnionTwice(f: Folder, m: map<string, Data>)
    ensures (f + m) + m == f + m
  {
  }

  /** Staging again overwrites every copy with the same bytes, so it changes nothing. */
  lemma StageIdempotent(f: Folder, role: Role)
    ensures Stage(Stage(f, role), role) == Stage(f, role)
  {
    var m := CopyMap(f, Packages(f), role);
    RestageSameCopies(f, role);
    UnionTwice(f, m);
  }

  /** Appending the suffix is injective, so the copies are as many as their originals. */
  lemma {:induction false} CopyNamesCount(sources: set<string>, role: Role)
    ensures |CopyNames(sources, role)| == |sources|
    decreases sources
  {
    if sources != {} {
      var p :| p in sources;
      var rest := sources - {p};
      CopyNamesCount(rest, role);
      assert CopyNames(sources, role) == CopyNames(rest, role) + {p + Suffix(role)};
      forall q | q in rest
        ensures q + Suffix(role) != p + Suffix(role)
      {
        if |q| == |p| {
          assert (q + Suffix(role))[..|q|] == q;
          assert (p + Suffix(role))[..|p|] == p;
        }
      }
    }
  }

  /** Without leftovers, the files matching `*<suffix>` after staging are exactly one copy per
      package, as many as there are packages. */
  lemma StagedCopies(f: Folder, role: Role)
    requires NoneStaged(f, role)
    ensures Matching(Stage(f, role), Suffix(role)) == CopyNames(Packages(f), role)
    ensures |Matching(Stage(f, role), Suffix(role))| == |Packages(f)|
  {
    var g := Stage(f, role);
    forall n | n in Matching(g, Suffix(role))
      ensures n in CopyNames(Packages(f), role)
    {
      assert n !in f;
      assert n == Original(n, role) + Suffix(role);
    }
    forall n | n in CopyNames(Packages(f), role)
      ensures n in Matching(g, Suffix(role))
    {
      var p :| p in Packages(f) && n == p + Suffix(role);
      AppendEndsWith(p, Suffix(role));
    }
    CopyNamesCount(Packages(f), role);
  }

  /** A NuGet folder holding A.nupkg gains the copy A.nupkg.nzip with the same bytes. */
  lemma ExampleStage(d: Data)
    ensures Stage(map["A.nupkg" := d], Nugets) == map["A.nupkg" := d, "A.nupkg.nzip" := d]
  {
    ExamplePackages(d);
    ExampleCopies(d);
  }

  /** The one package of the example folder. */
  lemma ExamplePackages(d: Data)
    ensures Packages(map["A.nupkg" := d]) == {"A.nupkg"}
  {
    assert "A" + PackageExtension == "A.nupkg";
    AppendEndsWith("A", PackageExtension);
    assert "A.nupkg" in Packages(map["A.nupkg" := d]);
  }

  /** The copy staging makes of the example package, named and filled from its original. */
  lemma ExampleCopies(d: Data)
    ensures CopyMap(map["A.nupkg" := d], {"A.nupkg"}, Nugets) == map["A.nupkg.nzip" := d]
  {
    assert "A.nupkg" + Suffix(Nugets) == "A.nupkg.nzip";
    assert CopyNames({"A.nupkg"}, Nugets) == {"A.nupkg.nzip"};
    AppendEndsWith("A.nupkg", Suffix(Nugets));
    assert Original("A.nupkg.nzip", Nugets) == "A.nupkg";
  }

  /** The cleanup removes the copy again: the folder ends as it started. */
  lemma ExampleCleanup(d: Data)
    ensures Cleanup(map["A.nupkg" := d, "A.nupkg.nzip" := d], Nugets) == map["A.nupkg" := d]
  {
    var f := map["A.nupkg" := d];
    ExampleStage(d);
    EndsWithLast("A.nupkg", Suffix(Nugets));
    assert NoneStaged(f, Nugets);
    StageThenCleanup(f, Nugets);
  }

  /** Cleaning up one role never removes the other role's copies, so the two cleanups commute. */
  lemma CleanupCommutes(f: Folder)
    ensures Cleanup(Cleanup(f, Nugets), Chocos) == Cleanup(Cleanup(f, Chocos), Nugets)
  {
    var a := Cleanup(Cleanup(f, Nugets), Chocos);
    var b := Cleanup(Cleanup(f, Chocos), Nugets);
    assert a.Keys == b.Keys;
  }

  /** Staging one role adds no name carrying the other role's suffix. */
  lemma StageKeepsOtherRoleClean(f: Folder, role: Role, other: Role)
    requires role != other
    requires NoneStaged(f, other)
    ensures NoneStaged(Stage(f, role), other)
  {
    forall n | n in Stage(f, role) && EndsWith(n, Suffix(other))
      ensures false
    {
      SuffixesDisjoint(n);
    }
  }

  /** Staging one role leaves the other role's copies as they were. */
  lemma StageKeepsOtherRoleCopies(f: Folder, role: Role, other: Role)
    requires role != other
    ensures Matching(Stage(f, role), Suffix(other)) == Matching(f, Suffix(other))
  {
    forall n | n in Stage(f, role) && EndsWith(n, Suffix(other))
      ensures n in f
    {
      SuffixesDisjoint(n);
    }
  }

  /** When both roles stage into the same folder, the two cleanups still restore it, provided it
      held no copies of either role before. */
  lemma {:induction false} SharedFolderRoundTrip(f: Folder)
    requires NoneStaged(f, Nugets) && NoneStaged(f, Chocos)
    ensures Cleanup(Cleanup(Stage(Stage(f, Nugets), Chocos), Nugets), Chocos) == f
  {
    var g := Stage(f, Nugets);
    StageKeepsOtherRoleClean(f, Nugets, Chocos);
    CleanupCommutes(Stage(g, Chocos));
    StageThenCleanup(g, Chocos);
    StageThenCleanup(f, Nugets);
  }

  /** The copies of one more source: one more name. */
  lemma CopyNamesInsert(sources: set<string>, p: string, role: Role)
    ensures CopyNames(sources + {p}, role) == CopyNames(sources, role) + {p + Suffix(role)}
  {
  }

  /** The copies of one more source: one more entry, holding that source's bytes. */
  lemma CopyMapInsert(f: Folder, sources: set<string>, p: string, role: Role)
    requires sources <= f.Keys && p in f
    ensures CopyMap(f, sources + {p}, role) == CopyMap(f, sources, role)[p + Suffix(role) := f[p]]
  {
    CopyNamesInsert(sources, p, role);
    AppendEndsWith(p, Suffix(role));
    var a := CopyMap(f, sources + {p}, role);
    var b := CopyMap(f, sources, role)[p + Suffix(role) := f[p]];
    assert a.Keys == b.Keys;
  }

  /** Updating the overriding map of a union is updating the union. */
  lemma UnionUpdate(f: Folder, m: map<string, Data>, k: string, v: Data)
    ensures f + m[k := v] == (f + m)[k := v]
  {
  }

  /** One more copy extends a partial staging by a single overwrite. */
  lemma CopyEachStep(f: Folder, sources: set<string>, p: string, role: Role)
    requires sources <= Packages(f) && p in Packages(f)
    ensures p in CopyEach(f, sources, role) && CopyEach(f, sources, role)[p] == f[p]
    ensures CopyEach(f, sources + {p}, role) == CopyEach(f, sources, role)[p + Suffix(role) := f[p]]
  {
    PackageIsNotStaged(p, role);
    CopyMapInsert(f, sources, p, role);
    UnionUpdate(f, CopyMap(f, sources, role), p + Suffix(role), f[p]);
    assert p !in CopyNames(sources, role);
  }

  /** The staging loop: list the packages of `dir` and copy each one in listing order. A missing
      folder throws before anything is copied. Whatever the listing order, the result is `Stage`. */
  method StageRole(fs: FileSystem, dir: string, role: Role) returns (r: Result<FileSystem, Exception>)
    ensures dir !in fs ==> r == Failure(DirectoryNotFound(dir))
    ensures dir in fs ==> r == Success(fs[dir := Stage(fs[dir], role)])
  {
    var listing :- GetFiles(fs, dir, PackageExtension);
    var f0 := fs[dir];
    ListedMultiset(listing, Packages(f0));
    var f := f0;
    for i := 0 to |listing|
      invariant Listed(listing[..i]) <= Packages(f0)
      invariant f == CopyEach(f0, Listed(listing[..i]), role)
    {
      var p := listing[i];
      CopyEachStep(f0, Listed(listing[..i]), p, role);
      ListedSnoc(listing, i);
      f := f[p + Suffix(role) := f[p]];
    }
    assert listing[..|listing|] == listing;
    return Success(fs[dir := f]);
  }

  /** The cleanup loop: list the role's copies in `dir` and delete each one in listing order.
      Whatever the listing order, the result is `Cleanup`. */
  method CleanupRole(fs: FileSystem, dir: string, role: Role) returns (r: Result<FileSystem, Exception>)
    ensures dir !in fs ==> r == Failure(DirectoryNotFound(dir))
    ensures dir in fs ==> r == Success(fs[dir := Cleanup(fs[dir], role)])
  {
    var listing :- GetFiles(fs, dir, Suffix(role));
    var f0 := fs[dir];
    ListedMultiset(listing, Matching(f0, Suffix(role)));
    var f := f0;
    for i := 0 to |listing|
      invariant f == f0 - Listed(listing[..i])
    {
      var n := listing[i];
      ListedSnoc(listing, i);
      f := f - {n};
    }
    assert listing[..|listing|] == listing;
    return Success(fs[dir := f]);
  }
}

=== FILE: text.dfy ===
/** String.Split on a single character, and its inverse String.Join. */
module Text {

  /** String.Split(sep): every part, empty ones included, in order; `|parts|` is one more than
      the number of separators. */
  function Split(s: string, sep: char): (parts: seq<string>)
    ensures |parts| >= 1
    ensures forall i :: 0 <= i < |parts| ==> sep !in parts[i]
    ensures sep in s <==> |parts| >= 2
    decreases |s|
  {
    if |s| == 0 then [""]
    else
      var rest := Split(s[1..], sep);
      if s[0] == sep then [""] + rest
      else [[s[0]] + rest[0]] + rest[1..]
  }

  /** String.Join(sep, parts). */
  function Join(parts: seq<string>, sep: char): string
    requires |parts| >= 1
  {
    if |parts| == 1 then parts[0] else parts[0] + [sep] + Join(parts[1..], sep)
  }

  /** Joining the parts of a split gives back the original string. */
  lemma {:induction false} JoinSplit(s: string, sep: char)
    ensures Join(Split(s, sep), sep) == s
    decreases |s|
  {
    if |s| > 0 {
      var rest := Split(s[1..], sep);
      JoinSplit(s[1..], sep);
      if s[0] == sep {
        assert Split(s, sep) == [""] + rest;
        assert ([""] + rest)[1..] == rest;
      } else {
        var parts := Split(s, sep);
        if |rest| == 1 {
          assert parts == [[s[0]] + rest[0]];
        } else {
          assert parts[1..] == rest[1..];
          assert Join(rest, sep) == rest[0] + [sep] + Join(rest[1..], sep);
          assert s == [s[0]] + s[1..];
        }
      }
    }
  }

  /** A first part free of the separator is split off whole. */
  lemma {:induction false} SplitCons(p: string, sep: char, t: string)
    requires sep !in p
    ensures Split(p + [sep] + t, sep) == [p] + Split(t, sep)
    decreases |p|
  {
    if |p| == 0 {
      assert p + [sep] + t == [sep] + t;
      assert ([sep] + t)[1..] == t;
    } else {
      SplitCons(p[1..], sep, t);
      assert (p + [sep] + t)[1..] == p[1..] + [sep] + t;
      assert [p[0]] + p[1..] == p;
    }
  }

  /** A string free of the separator splits into itself alone. */
  lemma {:induction false} SplitWhole(p: string, sep: char)
    requires sep !in p
    ensures Split(p, sep) == [p]
    decreases |p|
  {
    if |p| > 0 {
      SplitWhole(p[1..], sep);
      assert [p[0]] + p[1..] == p;
    }
  }

  /** Splitting a join of separator-free parts gives back the parts. */
  lemma {:induction false} SplitJoin(parts: seq<string>, sep: char)
    requires |parts| >= 1
    requires forall i :: 0 <= i < |parts| ==> sep !in parts[i]
    ensures Split(Join(parts, sep), sep) == parts
    decreases |parts|
  {
    if |parts| == 1 {
      SplitWhole(parts[0], sep);
    } else {
      SplitJoin(parts[1..], sep);
      SplitCons(parts[0], sep, Join(parts[1..], sep));
      assert [parts[0]] + parts[1..] == parts;
    }
  }

  /** A character absent from a string is absent from each of its parts. */
  lemma {:induction false} SplitPartsWithout(s: string, sep: char, c: char)
    requires c !in s
    ensures forall i :: 0 <= i < |Split(s, sep)| ==> c !in Split(s, sep)[i]
    decreases |s|
  {
    if |s| > 0 {
      SplitPartsWithout(s[1..], sep, c);
    }
  }
}
